=== FILE: README.md ===
# ros_ign_bridge message conversion, modelled in Dafny

This project models `ros_ign_bridge/src/convert.cpp`. That file holds the pairwise
converters between ROS 2 messages and Ignition Transport (protobuf) messages, which
the bridge applies to every message it relays.

- Each converter pair is a pair of pure functions.
  - `XToIgn(src, dst)` models `convert_ros_to_ign`.
  - `XToRos(src, dst, …)` models `convert_ign_to_ros`.
  - The C++ converters fill an existing destination. The model passes the
    destination in wherever the result depends on what it held. Examples: lists
    that are appended to, headers that gain pairs, enum fields left unchanged on an
    unlisted value.
- Each pair has a round-trip lemma. It states what a ROS message looks like after a
  trip to Ignition and back, including every way it is NOT the identity.
- Modules follow the file's structure:
  - `Base`: machine integer widths and their implicit conversions, uint32
    wrap-around, sequence map, the effect of the float/double casts.
  - `RosMsgs` and `IgnMsgs`: the two message families.
  - `Delimiter`: `replace_delimiter` and `frame_id_ign_to_ros`.
  - `Headers`: the header side channel of `frame_id` and `child_frame_id` pairs.
  - `EnumTables`: the enumeration tables.
  - `Scalars`, `Geometry`, `Physics`, `Sensors`, `Camera`, `PointCloud`,
    `LaserScan` and `Trajectory`: the converters.

Behaviours the model keeps as the code has them:

- **Frame ids are translated in one direction only.** The Ignition header has no
  frame field, so the ROS `frame_id` travels as a `("frame_id", [id])` pair,
  untranslated. Decoding turns every `::` into `/`, scanning left to right without
  overlap.
  - For `frame_id`, the last accepted pair wins.
  - For `child_frame_id`, the first accepted pair wins.
  - Encoding appends. An old `child_frame_id` pair left in the destination
    therefore shadows the new one (`Headers.StaleChildFrameWins`).
- **The decoded header stamp is derived from the wall clock, and not exactly.**
  The source takes the clock in nanoseconds, divides to whole seconds, and passes
  `nanosecs % secs` as the nanoseconds instead of the sub-second part. The model
  takes the resulting stamp as the parameter `now`.
- **Contact encoding drops the second collision.** It fills both Ignition
  collisions from the ROS `collision1`.
- **Lists are cleared, overwritten or appended unevenly.**
  - Encoding appends: contact depths, joint states, point-cloud fields, camera
    coefficients, laser readings, trajectory names and points, and each
    trajectory point's lists.
  - Encoding replaces: contact positions, normals and wrenches, the contact list,
    TF poses, image and point-cloud bytes.
  - Decoding appends: contacts and their lists, joint-state lists, point-cloud
    fields, trajectory names and points, and each trajectory point's lists.
  - Decoding replaces: TF transforms, laser readings, camera distortion
    coefficients, image and point-cloud bytes. It overwrites the camera K, P and R
    arrays from the front and keeps the rest.
- **An enumeration value outside a table usually leaves the destination field as
  it was.** This holds for entity types, distortion models and power-supply
  statuses. There are three exceptions:
  - An unknown point-field datatype becomes INT8.
  - An unknown ROS image encoding becomes UNKNOWN_PIXEL_FORMAT.
  - An unknown Ignition pixel format makes the decoder return early, keeping the
    destination image.
- **Image stride and byte count use 32-bit unsigned products.** They wrap modulo
  2^32: a 32FC1 row of 2^30 + 1 pixels has stride 4 (`Camera.StrideWraps`).
- **An unlisted enumeration value is its own constructor.** It carries a code
  that no named constant of the message definition has, so it cannot stand in
  for a listed value.
- **The laser-scan decoder keeps only the middle vertical beam.** It starts at
  `(vertical_count / 2) * count`, a 32-bit product.

The source has no error returns. Where it reads out of bounds, the model makes the
condition a precondition of the converter instead:

- indexing `&data[0]` of an empty image buffer;
- copying more image bytes than exist;
- indexing the joint-state name, velocity and effort lists by position;
- copying laser readings past the end;
- writing past the fixed 9/9/12-entry camera arrays.

`replace_delimiter` does not terminate on an empty delimiter with a non-empty input,
so that case is excluded too.

Floating-point values are their IEEE-754 bit patterns (`bv32`, `bv64`). They are
only copied. The float/double casts of the battery and laser-scan converters are
function parameters (`widen`, `narrow`). Their round trips assume only what
IEEE-754 prescribes for a cast to double and back (`Base.NarrowAfterWiden`): every
value comes back unchanged, except that a signalling NaN comes back as the quiet
NaN with the same payload (`Base.Quieted`).

The clock decoder calls the ROS client library's `Time(seconds, nanoseconds)`
constructor, the parameter `time`. It passes the int64 seconds cut to int32 and
the int32 nanoseconds read as uint32. When the seconds cut to int32 are negative
the constructor throws, and the model returns `None` (`Scalars.ClockToRos`).
Seconds far before the epoch can wrap to a positive int32 and decode
(`Scalars.FarNegativeDoesNotThrow`).

## Model

| member | source | states |
|---|---|---|
| Base.Quieted | ros_ign_bridge/src/convert.cpp:1038-1081 | the float-to-double-to-float effect of the casts: every value except a signalling NaN is kept; a signalling NaN becomes a different, quiet NaN |
| Base.QuietedExample | ros_ign_bridge/src/convert.cpp:1038-1081 | the signalling NaN 0x7F800001 comes back as the quiet NaN 0x7FC00001 |
| Base.QuietedKeepsOrdinary | ros_ign_bridge/src/convert.cpp:1071-1081 | readings without signalling NaNs come back unchanged |
| Delimiter.Find | ros_ign_bridge/src/convert.cpp:35 | `find` returns the least index at or after the start where the delimiter occurs, or none when it occurs nowhere after it |
| Delimiter.ReplaceDelimiterLoop | ros_ign_bridge/src/convert.cpp:23-45 | the `find`/`substr` loop computes exactly the left-to-right, non-overlapping replacement of every occurrence |
| Delimiter.ReplaceAbsent | ros_ign_bridge/src/convert.cpp:23-45 | a string without the delimiter comes back unchanged |
| Delimiter.ReplaceShrinks | ros_ign_bridge/src/convert.cpp:23-45 | with a shorter replacement, any occurrence makes the output strictly shorter |
| Delimiter.TranslatedHasNoScope | ros_ign_bridge/src/convert.cpp:48-51 | no `::` survives the translation, even where colons meet across a replaced delimiter |
| Delimiter.FrameIdIgnToRos | ros_ign_bridge/src/convert.cpp:48-51 | the translated frame id has no `::`, is never longer, and equals the input when the input had no `::` |
| Delimiter.FrameIdUnchangedIff | ros_ign_bridge/src/convert.cpp:48-51 | translation leaves a name unchanged if and only if it holds no `::` |
| Delimiter.FrameIdIdempotent | ros_ign_bridge/src/convert.cpp:48-51 | translating twice is translating once |
| Delimiter.FrameIdJoin | ros_ign_bridge/src/convert.cpp:48-51 | segments without colons joined by `::` translate to the same segments joined by `/` |
| Delimiter.ScopedNameExample | ros_ign_bridge/src/convert.cpp:48-51 | `a::b::c` translates to `a/b/c` |
| Headers.StampToIgn | ros_ign_bridge/src/convert.cpp:146-147 | the encoded stamp keeps the seconds, and keeps the nanoseconds whenever they are normalised |
| Headers.AppendPair | ros_ign_bridge/src/convert.cpp:148-150 | a pair is added after all existing pairs, which are kept, and it is accepted for its key |
| Headers.HeaderToIgn | ros_ign_bridge/src/convert.cpp:141-152 | header encode: converted stamp, and the pair list gains one `frame_id` pair holding the untranslated id |
| Headers.ScanLast | ros_ign_bridge/src/convert.cpp:184-189 | the decode scan yields the translated first value of the LAST accepted pair, or the prior value when no pair is accepted |
| Headers.ScanFirst | ros_ign_bridge/src/convert.cpp:379-385 | the `break` scan yields the translated first value of the FIRST accepted pair, or the prior value when no pair is accepted |
| Headers.HeaderToRos | ros_ign_bridge/src/convert.cpp:172-190 | header decode: the stamp is the clock reading; the frame id comes from the last accepted `frame_id` pair, else stays as the destination had it |
| Headers.ChildFrameIdToRos | ros_ign_bridge/src/convert.cpp:379-385 | the child frame id comes from the first accepted `child_frame_id` pair, else stays as the destination had it |
| Headers.HeaderRoundTrip | ros_ign_bridge/src/convert.cpp:141-190 | encode then decode gives the clock stamp and the translated frame id, whatever pairs the destination held; a frame id without `::` comes back unchanged |
| Headers.KeysDiffer | ros_ign_bridge/src/convert.cpp:381 | a `frame_id` pair is never taken for a `child_frame_id` pair |
| Headers.StampedHeaderToIgn | ros_ign_bridge/src/convert.cpp:363-368 | a stamped encode appends the `frame_id` pair and then the `child_frame_id` pair |
| Headers.StampedHeaderRoundTrip | ros_ign_bridge/src/convert.cpp:357-386 | both frame names come back translated, provided the destination had no `child_frame_id` pair |
| Headers.StaleChildFrameWins | ros_ign_bridge/src/convert.cpp:366-384 | a `child_frame_id` pair already in the destination shadows the newly appended one |
| Scalars.BoolToIgn | ros_ign_bridge/src/convert.cpp:53-60 | the Boolean encode is undone by the decode |
| Scalars.BoolToRos | ros_ign_bridge/src/convert.cpp:62-69 | the decoded Bool carries the same value |
| Scalars.UInt32ToIgn | ros_ign_bridge/src/convert.cpp:87-94 | the UInt32 encode is undone by the decode |
| Scalars.UInt32ToRos | ros_ign_bridge/src/convert.cpp:96-103 | the decoded UInt32 carries the same value |
| Scalars.Float32ToIgn | ros_ign_bridge/src/convert.cpp:105-112 | the Float32 encode is undone by the decode, bit for bit |
| Scalars.Float32ToRos | ros_ign_bridge/src/convert.cpp:114-121 | the decoded Float32 carries the same bits |
| Scalars.Float64ToIgn | ros_ign_bridge/src/convert.cpp:123-130 | the Float64 encode is undone by the decode, bit for bit |
| Scalars.Float64ToRos | ros_ign_bridge/src/convert.cpp:132-139 | the decoded Float64 carries the same bits |
| Scalars.Int32ToIgn | ros_ign_bridge/src/convert.cpp:154-161 | the Int32 encode is undone by the decode |
| Scalars.Int32ToRos | ros_ign_bridge/src/convert.cpp:163-170 | the decoded Int32 carries the same value |
| Scalars.StringToIgn | ros_ign_bridge/src/convert.cpp:192-199 | the String encode is undone by the decode |
| Scalars.StringToRos | ros_ign_bridge/src/convert.cpp:201-208 | the decoded String carries the same characters |
| Scalars.ScalarRoundTrips | ros_ign_bridge/src/convert.cpp:53-208 | Bool, UInt32, Int32, Float32, Float64 and String converters are mutually inverse, in both directions |
| Scalars.ClockToIgn | ros_ign_bridge/src/convert.cpp:219-227 | the simulation time keeps the clock's seconds, and keeps its nanoseconds whenever they are normalised |
| Scalars.ClockToRos | ros_ign_bridge/src/convert.cpp:210-217 | decoding throws (`None`) exactly when the seconds' low 32 bits are negative as an int32; otherwise the Time constructor gets those 32 bits as seconds and the nsec reinterpreted as uint32, which for in-range values are the encoded seconds and nanoseconds unchanged |
| Scalars.FarNegativeDoesNotThrow | ros_ign_bridge/src/convert.cpp:210-217 | a simulation time 2^32 - 5 seconds before the epoch with nsec -1 decodes as 5 seconds and 2^32 - 1 nanoseconds instead of throwing |
| Scalars.ClockRoundTrip | ros_ign_bridge/src/convert.cpp:210-227 | a clock with non-negative seconds and normalised nanoseconds survives the round trip, given a Time constructor that builds such times exactly |
| Scalars.NegativeClockThrows | ros_ign_bridge/src/convert.cpp:210-227 | a clock before the epoch encodes fine but does not decode: the Time constructor throws |
| Geometry.Vector3ToIgn | ros_ign_bridge/src/convert.cpp:253-262 | the Vector3 encode is undone by the decode |
| Geometry.Vector3ToRos | ros_ign_bridge/src/convert.cpp:264-273 | the decoded Vector3 keeps every coordinate bit for bit |
| Geometry.PointToIgn | ros_ign_bridge/src/convert.cpp:275-284 | the Point encode is undone by the decode |
| Geometry.PointToRos | ros_ign_bridge/src/convert.cpp:286-295 | the decoded Point keeps every coordinate bit for bit |
| Geometry.QuaternionToIgn | ros_ign_bridge/src/convert.cpp:229-239 | the Quaternion encode is undone by the decode |
| Geometry.QuaternionToRos | ros_ign_bridge/src/convert.cpp:241-251 | the decoded Quaternion keeps all four components, `w` included |
| Geometry.PoseToRos | ros_ign_bridge/src/convert.cpp:307-315 | position and orientation decoded, each encoding back to the Ignition pose's; the pose header is ignored |
| Geometry.TransformToRos | ros_ign_bridge/src/convert.cpp:347-355 | position into translation, orientation into rotation, each encoding back to the Ignition pose's |
| Geometry.TwistToIgn | ros_ign_bridge/src/convert.cpp:421-429 | both Twist vectors decode back to the source's |
| Geometry.TwistToRos | ros_ign_bridge/src/convert.cpp:431-439 | the Twist decode is undone by the encode |
| Geometry.WrenchToIgn | ros_ign_bridge/src/convert.cpp:441-449 | force and torque decode back to the source's |
| Geometry.WrenchToRos | ros_ign_bridge/src/convert.cpp:451-459 | the Wrench decode is undone by the encode |
| Geometry.PoseToIgn | ros_ign_bridge/src/convert.cpp:297-305 | the pose encode keeps the destination's header and is undone by the pose decode |
| Geometry.TransformToIgn | ros_ign_bridge/src/convert.cpp:337-345 | the transform encode keeps the destination's header and is undone by the transform decode |
| Geometry.GeometryRoundTrips | ros_ign_bridge/src/convert.cpp:229-459 | Vector3, Point, Quaternion, Pose, Transform, Twist and Wrench converters are mutually inverse in both directions; Pose and Transform up to the Ignition header |
| Geometry.PoseStampedToIgn | ros_ign_bridge/src/convert.cpp:317-325 | the header is encoded into the pose's header, and the pose decodes back to the source pose |
| Geometry.PoseStampedToRos | ros_ign_bridge/src/convert.cpp:327-335 | the header is decoded from the pose's header, and the pose is the pose decode |
| Geometry.PoseStampedRoundTrip | ros_ign_bridge/src/convert.cpp:317-335 | a stamped pose survives the round trip up to the relayed header |
| Geometry.TransformStampedToIgn | ros_ign_bridge/src/convert.cpp:357-369 | the header gains the frame pair and then the child-frame pair, and the transform decodes back to the source |
| Geometry.TransformStampedToRos | ros_ign_bridge/src/convert.cpp:371-386 | header decode, transform decode, and the child frame from the first accepted pair |
| Geometry.TransformStampedRoundTrip | ros_ign_bridge/src/convert.cpp:357-386 | a stamped transform comes back with relayed header and translated child frame when the destination had no child pair |
| Geometry.TFMessageToIgn | ros_ign_bridge/src/convert.cpp:388-405 | the pose list is replaced by one fresh pose per transform, in order; the header comes from the first transform, or stays when there is none |
| Geometry.TFMessageToRos | ros_ign_bridge/src/convert.cpp:407-419 | the transform list is replaced by one freshly decoded transform per pose, in order |
| Geometry.TFMessageRoundTrip | ros_ign_bridge/src/convert.cpp:388-419 | whatever either destination held, the transforms come back element by element as relayed transforms |
| EnumTables.EntityTypeToIgn | ros_ign_bridge/src/convert.cpp:496-526 | listed entity types map to listed types that decode back; an unlisted type leaves the destination's type |
| EnumTables.EntityTypeToRos | ros_ign_bridge/src/convert.cpp:535-556 | an unlisted Ignition type leaves the destination's type |
| EnumTables.EntityTypeRoundTrip | ros_ign_bridge/src/convert.cpp:491-557 | the eight entity types correspond one to one in both directions, whatever the destinations held |
| EnumTables.LayoutOfEncoding | ros_ign_bridge/src/convert.cpp:747-787 | a listed ROS encoding determines a pixel format whose own table row is the same layout |
| EnumTables.LayoutOfFormat | ros_ign_bridge/src/convert.cpp:808-847 | exactly the nine named formats have a layout; UNKNOWN and every other format have none |
| EnumTables.PixelTablesAgree | ros_ign_bridge/src/convert.cpp:747-847 | the encode and decode chains are the same nine-row table |
| EnumTables.PixelSizeBounds | ros_ign_bridge/src/convert.cpp:747-787 | every listed layout has between 1 and 6 bytes per pixel |
| EnumTables.DistortionModelToIgn | ros_ign_bridge/src/convert.cpp:871-880 | the three named models map to models that decode back; any other name leaves the destination's model |
| EnumTables.DistortionModelToRos | ros_ign_bridge/src/convert.cpp:914-922 | an unlisted model leaves the destination's model name |
| EnumTables.DistortionModelRoundTrip | ros_ign_bridge/src/convert.cpp:871-922 | the three distortion models correspond one to one in both directions |
| EnumTables.PointDatatypeToIgn | ros_ign_bridge/src/convert.cpp:1122-1154 | every ROS datatype maps to a named Ignition datatype (the `default` falls to INT8) |
| EnumTables.PointDatatypeToRos | ros_ign_bridge/src/convert.cpp:1174-1206 | every Ignition datatype maps to a named ROS datatype (the `default` falls to INT8) |
| EnumTables.PointDatatypeRoundTrip | ros_ign_bridge/src/convert.cpp:1122-1206 | the eight datatypes correspond one to one in both directions; any other value becomes INT8 |
| EnumTables.PowerSupplyStatusToIgn | ros_ign_bridge/src/convert.cpp:1224-1244 | an unlisted status leaves the destination's status |
| EnumTables.PowerSupplyStatusToRos | ros_ign_bridge/src/convert.cpp:1259-1275 | an unlisted status leaves the destination's status |
| EnumTables.PowerSupplyStatusRoundTrip | ros_ign_bridge/src/convert.cpp:1224-1275 | the five statuses correspond one to one in both directions |
| Physics.JointWrenchToIgn | ros_ign_bridge/src/convert.cpp:461-474 | header encode; names and ids unwrapped; both wrenches decode back to the source's |
| Physics.JointWrenchToRos | ros_ign_bridge/src/convert.cpp:476-489 | header decode; names and ids wrapped; both wrenches encode back to the source's |
| Physics.JointWrenchRoundTrip | ros_ign_bridge/src/convert.cpp:461-489 | a joint wrench survives the round trip up to its relayed header |
| Physics.EntityToIgn | ros_ign_bridge/src/convert.cpp:491-527 | id and name copied; a listed type decodes back; an unlisted type leaves the destination's |
| Physics.EntityToRos | ros_ign_bridge/src/convert.cpp:529-557 | id and name copied; an unlisted type leaves the destination's |
| Physics.EntityRoundTrip | ros_ign_bridge/src/convert.cpp:491-557 | an entity with a listed type survives any round trip; through fresh messages an unlisted type comes back NONE |
| Physics.ContactToIgn | ros_ign_bridge/src/convert.cpp:559-585 | both collisions come from `collision1`; positions and normals are replaced and decode back; depths are appended; wrenches are replaced, in order, by each source wrench encoded into a fresh joint wrench, which holds one frame pair |
| Physics.ContactToRos | ros_ign_bridge/src/convert.cpp:587-613 | each collision is decoded into the destination's; positions, normals, depths and wrenches are appended after the destination's, the new positions and normals encode back, and each new wrench is the source wrench decoded into a fresh joint wrench |
| Physics.ContactRoundTrip | ros_ign_bridge/src/convert.cpp:559-613 | through fresh messages a contact comes back with `collision2` replaced by `collision1`, unlisted types NONE and wrench headers relayed |
| Physics.Collision2Lost | ros_ign_bridge/src/convert.cpp:564-565 | the encoded contact does not depend on `collision2` |
| Physics.DepthsAccumulate | ros_ign_bridge/src/convert.cpp:566-578 | encoding twice into one message keeps positions but doubles the depths |
| Physics.ContactsToIgn | ros_ign_bridge/src/convert.cpp:615-627 | header encode; the contact list is replaced, in order, by each source contact encoded into a fresh contact, depths intact |
| Physics.ContactsToRos | ros_ign_bridge/src/convert.cpp:629-641 | header decode; after the destination's contacts come the source contacts, in order, each decoded into a fresh contact |
| Physics.ContactsRoundTrip | ros_ign_bridge/src/convert.cpp:615-641 | into a ROS message with no contacts, every contact comes back relayed |
| Sensors.OdometryToIgn | ros_ign_bridge/src/convert.cpp:677-690 | frame then child-frame pair appended; the pose keeps the destination pose's header and decodes back; the twist decodes back |
| Sensors.OdometryToRos | ros_ign_bridge/src/convert.cpp:692-709 | header decode, pose and twist decoded, child frame from the first accepted pair |
| Sensors.OdometryRoundTrip | ros_ign_bridge/src/convert.cpp:677-709 | odometry comes back with relayed header and translated child frame when the destination had no child pair |
| Sensors.FluidPressureToIgn | ros_ign_bridge/src/convert.cpp:711-720 | header encode; pressure and variance copied |
| Sensors.FluidPressureToRos | ros_ign_bridge/src/convert.cpp:722-731 | header decode; pressure and variance copied |
| Sensors.FluidPressureRoundTrip | ros_ign_bridge/src/convert.cpp:711-731 | survives the round trip up to its relayed header |
| Sensors.ImuToIgn | ros_ign_bridge/src/convert.cpp:951-965 | the entity name is the untranslated frame id; orientation and vectors decode back |
| Sensors.ImuToRos | ros_ign_bridge/src/convert.cpp:967-979 | header decode; orientation and vectors encode back; the entity name is ignored |
| Sensors.ImuRoundTrip | ros_ign_bridge/src/convert.cpp:951-979 | survives the round trip up to its relayed header |
| Sensors.MagneticFieldToIgn | ros_ign_bridge/src/convert.cpp:1085-1093 | header encode; the field decodes back |
| Sensors.MagneticFieldToRos | ros_ign_bridge/src/convert.cpp:1095-1105 | header decode; the field encodes back |
| Sensors.MagneticFieldRoundTrip | ros_ign_bridge/src/convert.cpp:1085-1105 | survives the round trip up to its relayed header |
| Sensors.JointStateToIgn | ros_ign_bridge/src/convert.cpp:981-996 | one joint per position is appended, with the name, velocity and effort at the same index |
| Sensors.JointStateToRos | ros_ign_bridge/src/convert.cpp:998-1012 | each joint's name, position, velocity and force are appended to the four lists |
| Sensors.JointStateRoundTrip | ros_ign_bridge/src/convert.cpp:981-1012 | between empty lists a joint state keeps every position, and the names, velocities and efforts cut to the number of positions |
| Sensors.BatteryStateToIgn | ros_ign_bridge/src/convert.cpp:1212-1245 | readings widened; a listed status decodes back; an unlisted status leaves the destination's |
| Sensors.BatteryStateToRos | ros_ign_bridge/src/convert.cpp:1247-1281 | readings narrowed; health and technology UNKNOWN and `present` set, whatever the destination held |
| Sensors.BatteryStateRoundTrip | ros_ign_bridge/src/convert.cpp:1212-1281 | a state with a listed status comes back except for relayed header, health and technology UNKNOWN, `present` set, and signalling-NaN readings quieted |
| Camera.Stride | ros_ign_bridge/src/convert.cpp:789 | the row stride is width × channels × octets modulo 2^32, and exactly that product whenever it fits in 32 bits |
| Camera.ByteCount | ros_ign_bridge/src/convert.cpp:791 | the byte count is stride × height modulo 2^32, and exactly that product whenever it fits in 32 bits |
| Camera.ImageToIgn | ros_ign_bridge/src/convert.cpp:733-792 | a listed encoding gives its format, the stride, and exactly the first byte-count bytes; an unlisted one gives UNKNOWN_PIXEL_FORMAT and keeps stride and bytes |
| Camera.ImageToRos | ros_ign_bridge/src/convert.cpp:794-858 | a listed format gives its encoding, little-endian, the stride, and exactly the first byte-count bytes; an unlisted one keeps encoding, endianness, stride and bytes |
| Camera.ImageRoundTrip | ros_ign_bridge/src/convert.cpp:733-858 | a listed image comes back with relayed header, `is_bigendian` cleared, recomputed stride and its bytes cut to one image |
| Camera.WellFormedImageRoundTrip | ros_ign_bridge/src/convert.cpp:733-858 | a little-endian image with the layout's stride and size survives up to its relayed header |
| Camera.UnlistedEncodingLost | ros_ign_bridge/src/convert.cpp:783-786 | an image with an unlisted encoding decodes to the destination's encoding, stride and bytes |
| Camera.RgbaExample | ros_ign_bridge/src/convert.cpp:759-791 | a 4×2 rgba8 image has stride 16 and 32 bytes |
| Camera.StrideWraps | ros_ign_bridge/src/convert.cpp:789-791 | the 32-bit stride wraps: a 32FC1 row of 2^30 pixels has stride 0, and one of 2^30 + 1 pixels has stride 4 |
| Camera.CameraInfoToIgn | ros_ign_bridge/src/convert.cpp:860-899 | the three sub-messages are present; the model maps through the table; D, K, P, R are appended after what was there |
| Camera.CameraInfoToRos | ros_ign_bridge/src/convert.cpp:901-949 | the arrays stay 9/9/12; a present distortion sets the model and replaces D; a present K or P, and R, overwrite the array from the front and the rest keeps the destination's values |
| Camera.CameraInfoRoundTrip | ros_ign_bridge/src/convert.cpp:860-949 | through a fresh Ignition message a calibration comes back whole, up to its relayed header and an unlisted model becoming "plumb_bob" |
| Camera.CameraInfoEncodeAppends | ros_ign_bridge/src/convert.cpp:886-889 | encoding twice into one message doubles K to 18 entries, which the decoder cannot take |
| PointCloud.FieldToIgn | ros_ign_bridge/src/convert.cpp:1117-1156 | name, offset and count copied; a listed datatype decodes back |
| PointCloud.FieldToRos | ros_ign_bridge/src/convert.cpp:1168-1208 | name, offset and count copied; a listed datatype encodes back |
| PointCloud.PointCloud2ToIgn | ros_ign_bridge/src/convert.cpp:1107-1157 | bytes and layout fields copied exactly; fields appended, each decoding to the relayed field |
| PointCloud.PointCloud2ToRos | ros_ign_bridge/src/convert.cpp:1159-1210 | bytes and layout fields copied exactly; after the destination's fields come the source fields, in order, each decoded |
| PointCloud.PointCloud2RoundTrip | ros_ign_bridge/src/convert.cpp:1107-1210 | between field-less messages a cloud comes back with relayed header and each field relayed |
| PointCloud.ListedPointCloud2RoundTrip | ros_ign_bridge/src/convert.cpp:1107-1210 | a cloud whose field datatypes are all listed survives up to its header |
| PointCloud.FieldsAccumulate | ros_ign_bridge/src/convert.cpp:1117-1118 | encoding twice into one message lists the fields twice |
| LaserScan.LaserScanToIgn | ros_ign_bridge/src/convert.cpp:1014-1042 | frame from the untranslated id; angles and ranges widened; vertical fields zero; the given number of readings appended |
| LaserScan.BeamStart | ros_ign_bridge/src/convert.cpp:1064-1065 | the middle beam starts at 0 for one beam, and at (vertical_count / 2) × count modulo 2^32, exactly that product when it fits in 32 bits |
| LaserScan.LaserScanToRos | ros_ign_bridge/src/convert.cpp:1044-1083 | frame from the translated `frame` field; timing fields zero; exactly `count` readings of the middle beam, narrowed |
| LaserScan.LaserScanRoundTrip | ros_ign_bridge/src/convert.cpp:1014-1083 | through a scan with no readings, a scan comes back with relayed header, timing zeroed, its first N readings, and signalling NaNs quieted |
| LaserScan.StaleReadingsRead | ros_ign_bridge/src/convert.cpp:1038-1081 | encoding into a scan that already held readings decodes the OLD readings |
| LaserScan.MiddleBeamExample | ros_ign_bridge/src/convert.cpp:1061-1081 | three beams of five readings decode to readings 5 to 9 |
| Trajectory.DurationToIgn | ros_ign_bridge/src/convert.cpp:1302-1304 | the encoded duration keeps the seconds, and keeps the nanoseconds whenever they are normalised |
| Trajectory.TrajectoryPointToIgn | ros_ign_bridge/src/convert.cpp:1283-1305 | the four lists are appended to; the time is overwritten |
| Trajectory.TrajectoryPointToRos | ros_ign_bridge/src/convert.cpp:1307-1329 | the four lists are appended to; the time is built by the Duration constructor |
| Trajectory.TrajectoryPointRoundTrip | ros_ign_bridge/src/convert.cpp:1283-1329 | given a Duration constructor that restores normalised durations, a point with normalised time survives a round trip through fresh points |
| Trajectory.TrajectoryPointAccumulates | ros_ign_bridge/src/convert.cpp:1289-1291 | encoding twice into one point doubles the positions |
| Trajectory.JointTrajectoryToIgn | ros_ign_bridge/src/convert.cpp:1331-1347 | names appended; after the destination's points come the source points, in order, each encoded into a fresh point |
| Trajectory.JointTrajectoryToRos | ros_ign_bridge/src/convert.cpp:1349-1366 | names appended; after the destination's points come the source points, in order, each decoded into a fresh point |
| Trajectory.JointTrajectoryRoundTrip | ros_ign_bridge/src/convert.cpp:1331-1366 | given a Duration constructor that restores normalised durations, a trajectory with normalised times survives a round trip between empty trajectories, up to its relayed header |

## Left out

- The decoded header stamp is derived from the system clock. It is the parameter
  `now`, unconstrained. The source reads the clock once per decoded header; the
  model uses one reading per converter call. The source builds the stamp from the
  whole seconds and `nanosecs % secs` (not the sub-second part of the reading);
  the model does not compute it.
- The ROS client library's `Time` and `Duration` constructors are parameters
  (`time`, `duration`). They are used by Clock decode and trajectory-point decode,
  and their code is not part of this model. Only the Time constructor's throw on
  negative seconds is modelled.
- Scalars.ClockRoundTrip: the decoded time is assumed, not proved. The lemma
  assumes the Time constructor builds exactly the time it is given when the
  seconds are non-negative and the nanoseconds are below one second; the
  constructor's code is not part of this model. Negative seconds throw instead,
  and `Scalars.NegativeClockThrows` states that.
- LaserScan.LaserScanRoundTrip: assumes the casts keep a NaN's payload when
  quieting it. IEEE-754 recommends this, and common hardware does it.
- Sensors.BatteryStateRoundTrip: assumes the casts keep a NaN's payload when
  quieting it, as for the laser scan.
- The laser-scan reading count is the parameter `numReadings`. The source computes
  it in floating point as `(angle_max - angle_min) / angle_increment`, truncated to
  unsigned.
- Float/double casts are the parameters `widen`/`narrow`. No IEEE-754 arithmetic is
  modelled.
- `design_capacity` of the decoded battery state is set to NaN. No converter reads
  it, so it is not a field of the model.
- Diagnostics written to standard error on unlisted values. They are output only.
- The `Empty` converters. They have no fields.
- The commented-out Actuators converters. They are not compiled.
- Message fields no converter reads or writes. These include covariances, region of
  interest and binning, battery cells and temperature, and the headers of leaf
  messages.
- Headers.HeaderToRos: states the decoded stamp only as the parameter `now`. It
  does not state how the source derives it from the wall clock (whole seconds,
  with `nanosecs % secs` as the nanoseconds).
- Trajectory.TrajectoryPointRoundTrip: the decoded time is assumed, not proved. The
  lemma assumes the Duration constructor builds exactly the duration it is given
  when the nanoseconds are normalised; the constructor's code is not part of this
  model.
- Trajectory.JointTrajectoryRoundTrip: assumes the Duration constructor restores
  normalised durations, as for a single point.

=== FILE: base.dfy ===
/** Machine-level value types shared by both message families.

    Integers carry the width of the field they model.  Floating-point values
    are kept as their IEEE-754 bit patterns: apart from the float32/float64
    casts (which are parameters of the converters that need them) the
    converters only copy such values, so no arithmetic on them is modelled.
 */
module Base {

  type uint8 = x: int | 0 <= x < 0x100
  type uint32 = x: int | 0 <= x < 0x1_0000_0000
  type int32 = x: int | -0x8000_0000 <= x < 0x8000_0000
  type uint64 = x: int | 0 <= x < 0x1_0000_0000_0000_0000
  type int64 = x: int | -0x8000_0000_0000_0000 <= x < 0x8000_0000_0000_0000

  /** IEEE-754 binary32 and binary64 values, by bit pattern. */
  type float32 = bv32
  type float64 = bv64

  /** +0.0 in either width (all bits clear). */
  const Zero32: float32 := 0
  const Zero64: float64 := 0

  datatype Option<T> = None | Some(value: T)

  /** C++ `unsigned int` multiplication: the product modulo 2^32. */
  function MulU32(a: uint32, b: uint32): (r: uint32)
    ensures a * b < 0x1_0000_0000 ==> r == a * b
    ensures r <= a * b
    ensures (a * b - r) % 0x1_0000_0000 == 0
  {
    (a * b) % 0x1_0000_0000
  }

  /** Reducing a factor modulo 2^32 before a product leaves the product's class modulo 2^32 unchanged. */
  lemma CongruentProduct(x: int, y: int, c: int)
    requires (x - y) % 0x1_0000_0000 == 0
    ensures (x * c - y * c) % 0x1_0000_0000 == 0
  {
    var k := (x - y) / 0x1_0000_0000;
    assert x - y == k * 0x1_0000_0000;
    assert x * c - y * c == (x - y) * c;
    assert (x - y) * c == (k * c) * 0x1_0000_0000;
  }

  /** Congruence modulo 2^32 is transitive. */
  lemma CongruentChain(x: int, y: int, z: int)
    requires (x - y) % 0x1_0000_0000 == 0
    requires (y - z) % 0x1_0000_0000 == 0
    ensures (x - z) % 0x1_0000_0000 == 0
  {
    var j := (x - y) / 0x1_0000_0000;
    var k := (y - z) / 0x1_0000_0000;
    assert x - z == (j + k) * 0x1_0000_0000;
  }

  /** The implicit conversion of a uint32 to a protobuf int32 field:
      the same 32 bits read as two's complement. */
  function U32ToI32(x: uint32): (r: int32)
    ensures x < 0x8000_0000 ==> r == x
    ensures x >= 0x8000_0000 ==> r < 0
    ensures (r + 0x1_0000_0000) % 0x1_0000_0000 == x
  {
    if x < 0x8000_0000 then x else x - 0x1_0000_0000
  }

  /** The implicit conversion of an int32 to a uint32 parameter: the same
      32 bits read as unsigned.  It undoes `U32ToI32`. */
  function I32ToU32(x: int32): (r: uint32)
    ensures x >= 0 ==> r == x
    ensures x < 0 ==> r >= 0x8000_0000
    ensures U32ToI32(r) == x
  {
    if x < 0 then x + 0x1_0000_0000 else x
  }

  /** The implicit conversion of an int64 to an int32 parameter: the low 32
      bits read as two's complement. */
  function I64ToI32(x: int64): (r: int32)
    ensures -0x8000_0000 <= x < 0x8000_0000 ==> r == x
    ensures (r - x) % 0x1_0000_0000 == 0
  {
    U32ToI32(x % 0x1_0000_0000)
  }

  /** Applies `f` to every element, keeping order and length. */
  function Map<A, B>(f: A -> B, s: seq<A>): (r: seq<B>)
    ensures |r| == |s|
    ensures forall i :: 0 <= i < |s| ==> r[i] == f(s[i])
  {
    seq(|s|, i requires 0 <= i < |s| => f(s[i]))
  }

  /** Mapping a function and then its left inverse gives the list back. */
  lemma {:induction false} MapInverse<A, B>(f: A -> B, g: B -> A, s: seq<A>)
    requires forall x :: g(f(x)) == x
    ensures Map(g, Map(f, s)) == s
  {
    var r := Map(g, Map(f, s));
    assert |r| == |s|;
    forall i | 0 <= i < |s|
      ensures r[i] == s[i]
    {
      assert r[i] == g(Map(f, s)[i]) == g(f(s[i]));
    }
  }

  /** Mapping `f` and then `g` is mapping their composite `h`. */
  lemma {:induction false} MapCompose<A, B, C>(f: A -> B, g: B -> C, h: A -> C, s: seq<A>)
    requires forall x :: g(f(x)) == h(x)
    ensures Map(g, Map(f, s)) == Map(h, s)
  {
    var r := Map(g, Map(f, s));
    assert |r| == |s|;
    forall i | 0 <= i < |s|
      ensures r[i] == Map(h, s)[i]
    {
      assert r[i] == g(Map(f, s)[i]) == g(f(s[i]));
    }
  }

  /** An IEEE-754 binary32 signalling NaN: exponent all ones, quiet bit
      (bit 22) clear, the rest of the significand non-zero. */
  predicate SignallingNaN32(x: float32) {
    x & 0x7F80_0000 == 0x7F80_0000 && x & 0x0040_0000 == 0 && x & 0x003F_FFFF != 0
  }

  /** What a float-to-double cast followed by a double-to-float cast does to
      a binary32 value: a signalling NaN comes back quiet, with its payload;
      every other value, NaN or not, comes back unchanged. */
  function Quieted(x: float32): (r: float32)
    ensures !SignallingNaN32(x) ==> r == x
    ensures SignallingNaN32(x) ==> r != x && !SignallingNaN32(r)
  {
    if SignallingNaN32(x) then x | 0x0040_0000 else x
  }

  /** The smallest-payload signalling NaN comes back as the quiet NaN with
      the same payload. */
  lemma QuietedExample()
    ensures SignallingNaN32(0x7F80_0001) && Quieted(0x7F80_0001) == 0x7FC0_0001
  {
  }

  /** Readings without signalling NaNs are left as they are. */
  lemma QuietedKeepsOrdinary(s: seq<float32>)
    requires forall i :: 0 <= i < |s| ==> !SignallingNaN32(s[i])
    ensures Map(Quieted, s) == s
  {
  }

  /** The float-to-double cast `widen` followed by the double-to-float cast
      `narrow` behaves as IEEE-754 prescribes: `Quieted`. */
  ghost predicate NarrowAfterWiden(widen: float32 -> float64, narrow: float64 -> float32) {
    forall x :: narrow(widen(x)) == Quieted(x)
  }
}

=== FILE: camera.dfy ===
/** Image and camera-calibration converters.

    An image's pixel layout comes from the nine-row table of `EnumTables`.
    With a listed layout the row stride and byte count are recomputed in
    32-bit unsigned arithmetic and exactly that many bytes are copied, so
    the source buffer must hold them (the source reads past its end
    otherwise).  With an unlisted layout the converter stops early: the
    encoder records UNKNOWN_PIXEL_FORMAT and keeps the destination's stride
    and bytes, the decoder keeps the destination's encoding, endianness,
    stride and bytes.

    The ROS calibration matrices are fixed-size arrays (9, 9 and 12
    entries); the encoder APPENDS them to whatever the Ignition message
    holds, and the decoder overwrites them from the front.
 */
module Camera {
  import opened Base
  import opened Headers
  import opened EnumTables
  import Delimiter
  import Ros = RosMsgs
  import Ign = IgnMsgs

  // Image

  /** Bytes per row: width * channels * octets, modulo 2^32. */
  function Stride(width: uint32, l: PixelLayout): (r: uint32)
    ensures width * l.channels * l.octetsPerChannel < 0x1_0000_0000 ==> r == width * l.channels * l.octetsPerChannel
    ensures (width * l.channels * l.octetsPerChannel - r) % 0x1_0000_0000 == 0
  {
    var wc := MulU32(width, l.channels);
    var r := MulU32(wc, l.octetsPerChannel);
    CongruentProduct(width * l.channels, wc, l.octetsPerChannel);
    CongruentChain(width * l.channels * l.octetsPerChannel, wc * l.octetsPerChannel, r);
    r
  }

  /** Bytes copied: stride * height, modulo 2^32. */
  function ByteCount(width: uint32, height: uint32, l: PixelLayout): (r: uint32)
    ensures Stride(width, l) * height < 0x1_0000_0000 ==> r == Stride(width, l) * height
    ensures (Stride(width, l) * height - r) % 0x1_0000_0000 == 0
  {
    MulU32(Stride(width, l), height)
  }

  /** What the ROS-to-Ignition image converter needs of its input: with a
      listed encoding, a non-empty buffer holding at least one full image. */
  predicate EncodableImage(img: Ros.Image) {
    match LayoutOfEncoding(img.encoding)
    case None => true
    case Some(l) => 0 < |img.data| && ByteCount(img.width, img.height, l) <= |img.data|
  }

  /** What the Ignition-to-ROS image converter needs of its input: with a
      listed format, a buffer holding at least one full image. */
  predicate DecodableImage(img: Ign.Image) {
    match LayoutOfFormat(img.pixelFormatType)
    case None => true
    case Some(l) => ByteCount(img.width, img.height, l) <= |img.data|
  }

  /** `convert_ros_to_ign(Image)`. */
  function ImageToIgn(src: Ros.Image, dst: Ign.Image): (r: Ign.Image)
    requires EncodableImage(src)
    ensures r.header == HeaderToIgn(src.header, dst.header)
    ensures r.width == src.width && r.height == src.height
    ensures LayoutOfEncoding(src.encoding).None? ==>
              r.pixelFormatType == Ign.UNKNOWN_PIXEL_FORMAT && r.step == dst.step && r.data == dst.data
    ensures LayoutOfEncoding(src.encoding).Some? ==>
              var l := LayoutOfEncoding(src.encoding).value;
              LayoutOfFormat(r.pixelFormatType) == Some(l)
              && r.step == Stride(src.width, l)
              && |r.data| == ByteCount(src.width, src.height, l)
              && r.data == src.data[..|r.data|]
  {
    var withHeader := dst.(header := HeaderToIgn(src.header, dst.header), width := src.width, height := src.height);
    match LayoutOfEncoding(src.encoding)
    case None => withHeader.(pixelFormatType := Ign.UNKNOWN_PIXEL_FORMAT)
    case Some(l) =>
      withHeader.(pixelFormatType := l.format,
                  step := Stride(src.width, l),
                  data := src.data[..ByteCount(src.width, src.height, l)])
  }

  /** `convert_ign_to_ros(Image)`; a listed format also clears
      `is_bigendian`. */
  function ImageToRos(src: Ign.Image, dst: Ros.Image, now: Ros.Time): (r: Ros.Image)
    requires DecodableImage(src)
    ensures r.header == HeaderToRos(src.header, dst.header, now)
    ensures r.width == src.width && r.height == src.height
    ensures LayoutOfFormat(src.pixelFormatType).None? ==>
              r.encoding == dst.encoding && r.isBigendian == dst.isBigendian
              && r.step == dst.step && r.data == dst.data
    ensures LayoutOfFormat(src.pixelFormatType).Some? ==>
              var l := LayoutOfFormat(src.pixelFormatType).value;
              LayoutOfEncoding(r.encoding) == Some(l)
              && r.isBigendian == 0
              && r.step == Stride(src.width, l)
              && |r.data| == ByteCount(src.width, src.height, l)
              && r.data == src.data[..|r.data|]
  {
    var withHeader := dst.(header := HeaderToRos(src.header, dst.header, now), height := src.height, width := src.width);
    match LayoutOfFormat(src.pixelFormatType)
    case None => withHeader
    case Some(l) =>
      PixelTablesAgree(src.pixelFormatType);
      withHeader.(encoding := l.encoding,
                  isBigendian := 0,
                  step := Stride(src.width, l),
                  data := src.data[..ByteCount(src.width, src.height, l)])
  }

  /** An image with a listed encoding comes back with its header relayed,
      `is_bigendian` cleared, the stride recomputed from the width, and the
      bytes cut to one full image. */
  lemma ImageRoundTrip(img: Ros.Image, dst: Ign.Image, dst': Ros.Image, now: Ros.Time)
    requires EncodableImage(img) && LayoutOfEncoding(img.encoding).Some?
    ensures DecodableImage(ImageToIgn(img, dst))
    ensures var l := LayoutOfEncoding(img.encoding).value;
      ImageToRos(ImageToIgn(img, dst), dst', now)
      == img.(header := Relayed(img.header, now),
              isBigendian := 0,
              step := Stride(img.width, l),
              data := img.data[..ByteCount(img.width, img.height, l)])
  {
    HeaderRoundTrip(img.header, dst.header, dst'.header, now);
  }

  /** So a well-formed little-endian image (stride and size as the layout
      says) survives the round trip up to its relayed header. */
  lemma WellFormedImageRoundTrip(img: Ros.Image, dst: Ign.Image, dst': Ros.Image, now: Ros.Time)
    requires LayoutOfEncoding(img.encoding).Some?
    requires var l := LayoutOfEncoding(img.encoding).value;
      img.step == Stride(img.width, l) && |img.data| == ByteCount(img.width, img.height, l) && 0 < |img.data|
    requires img.isBigendian == 0
    ensures ImageToRos(ImageToIgn(img, dst), dst', now) == img.(header := Relayed(img.header, now))
  {
    ImageRoundTrip(img, dst, dst', now);
  }

  /** An image whose encoding is not listed never reaches ROS intact: the
      decoded encoding, stride and bytes are whatever the destination held. */
  lemma UnlistedEncodingLost(img: Ros.Image, dst: Ign.Image, dst': Ros.Image, now: Ros.Time)
    requires LayoutOfEncoding(img.encoding).None?
    ensures DecodableImage(ImageToIgn(img, dst))
    ensures var r := ImageToRos(ImageToIgn(img, dst), dst', now);
      r.encoding == dst'.encoding && r.step == dst'.step && r.data == dst'.data
  {
  }

  /** A 4x2 RGBA image has 16-byte rows and 32 bytes in all. */
  lemma RgbaExample()
    ensures LayoutOfEncoding("rgba8").Some?
    ensures Stride(4, LayoutOfEncoding("rgba8").value) == 16
    ensures ByteCount(4, 2, LayoutOfEncoding("rgba8").value) == 32
  {
  }

  /** The stride wraps: a 32FC1 image 2^30 pixels wide has a zero stride,
      so no bytes are copied. */
  lemma StrideWraps()
    ensures LayoutOfEncoding("32FC1").Some?
    ensures Stride(0x4000_0000, LayoutOfEncoding("32FC1").value) == 0
    ensures ByteCount(0x4000_0000, 7, LayoutOfEncoding("32FC1").value) == 0
    ensures Stride(0x4000_0001, LayoutOfEncoding("32FC1").value) == 4
  {
  }

  // Camera info

  /** What `mutable_*()` yields: the sub-message if present, else a fresh one. */
  function Mutable<T>(o: Option<T>, default: T): (r: T)
    ensures o.Some? ==> r == o.value
    ensures o.None? ==> r == default
  {
    match o
    case Some(v) => v
    case None => default
  }

  /** `base` with its first |prefix| entries replaced by `prefix`: the
      decoder's element-wise copy into a fixed-size array. */
  function Overwrite(base: seq<float64>, prefix: seq<float64>): (r: seq<float64>)
    requires |prefix| <= |base|
    ensures |r| == |base|
    ensures forall i :: 0 <= i < |base| ==> r[i] == (if i < |prefix| then prefix[i] else base[i])
  {
    prefix + base[|prefix|..]
  }

  /** `convert_ros_to_ign(CameraInfo)`: header and size; the distortion,
      intrinsics and projection sub-messages are created if absent; the
      model goes through the distortion table (unchanged when unlisted);
      D, K, P and R are appended to the coefficients already there. */
  function CameraInfoToIgn(src: Ros.CameraInfo, dst: Ign.CameraInfo): (r: Ign.CameraInfo)
    ensures r.header == HeaderToIgn(src.header, dst.header)
    ensures r.width == src.width && r.height == src.height
    ensures r.distortion.Some? && r.intrinsics.Some? && r.projection.Some?
    ensures var d := Mutable(dst.distortion, Ign.DefaultDistortion);
      r.distortion.value.model == DistortionModelToIgn(src.distortionModel, d.model)
      && r.distortion.value.k == d.k + src.d
    ensures r.intrinsics.value.k == Mutable(dst.intrinsics, Ign.Intrinsics([])).k + src.k
    ensures r.projection.value.p == Mutable(dst.projection, Ign.Projection([])).p + src.p
    ensures r.rectificationMatrix == dst.rectificationMatrix + src.r
  {
    var d := Mutable(dst.distortion, Ign.DefaultDistortion);
    Ign.CameraInfo(
      HeaderToIgn(src.header, dst.header),
      src.width, src.height,
      Some(Ign.Distortion(DistortionModelToIgn(src.distortionModel, d.model), d.k + src.d)),
      Some(Ign.Intrinsics(Mutable(dst.intrinsics, Ign.Intrinsics([])).k + src.k)),
      Some(Ign.Projection(Mutable(dst.projection, Ign.Projection([])).p + src.p)),
      dst.rectificationMatrix + src.r)
  }

  /** What the Ignition-to-ROS calibration converter needs: no more
      coefficients than the fixed-size ROS arrays hold. */
  predicate DecodableCameraInfo(c: Ign.CameraInfo) {
    (c.intrinsics.Some? ==> |c.intrinsics.value.k| <= 9)
    && (c.projection.Some? ==> |c.projection.value.p| <= 12)
    && |c.rectificationMatrix| <= 9
  }

  /** `convert_ign_to_ros(CameraInfo)`: header and size; a present
      distortion sets the model (unchanged when unlisted) and replaces D;
      present intrinsics and projection, and the rectification matrix,
      overwrite K, P and R from the front. */
  function CameraInfoToRos(src: Ign.CameraInfo, dst: Ros.CameraInfo, now: Ros.Time): (r: Ros.CameraInfo)
    requires Ros.WellSizedCameraInfo(dst) && DecodableCameraInfo(src)
    ensures Ros.WellSizedCameraInfo(r)
    ensures r.header == HeaderToRos(src.header, dst.header, now)
    ensures r.width == src.width && r.height == src.height
    ensures src.distortion.None? ==> r.distortionModel == dst.distortionModel && r.d == dst.d
    ensures src.distortion.Some? ==>
              r.distortionModel == DistortionModelToRos(src.distortion.value.model, dst.distortionModel)
              && r.d == src.distortion.value.k
    ensures src.intrinsics.None? ==> r.k == dst.k
    ensures src.intrinsics.Some? ==> r.k[..|src.intrinsics.value.k|] == src.intrinsics.value.k
    ensures src.intrinsics.Some? ==> forall i :: |src.intrinsics.value.k| <= i < 9 ==> r.k[i] == dst.k[i]
    ensures src.projection.None? ==> r.p == dst.p
    ensures src.projection.Some? ==> r.p[..|src.projection.value.p|] == src.projection.value.p
    ensures src.projection.Some? ==> forall i :: |src.projection.value.p| <= i < 12 ==> r.p[i] == dst.p[i]
    ensures r.r[..|src.rectificationMatrix|] == src.rectificationMatrix
    ensures forall i :: |src.rectificationMatrix| <= i < 9 ==> r.r[i] == dst.r[i]
  {
    Ros.CameraInfo(
      HeaderToRos(src.header, dst.header, now),
      src.height, src.width,
      if src.distortion.Some? then DistortionModelToRos(src.distortion.value.model, dst.distortionModel) else dst.distortionModel,
      if src.distortion.Some? then src.distortion.value.k else dst.d,
      if src.intrinsics.Some? then Overwrite(dst.k, src.intrinsics.value.k) else dst.k,
      Overwrite(dst.r, src.rectificationMatrix),
      if src.projection.Some? then Overwrite(dst.p, src.projection.value.p) else dst.p)
  }

  /** The distortion model a calibration comes back with through a fresh
      Ignition message: its own when listed, else the protobuf default
      "plumb_bob". */
  function RelayedDistortionModel(model: string): string {
    if model in {"plumb_bob", "rational_polynomial", "equidistant"} then model else "plumb_bob"
  }

  /** A calibration sent through a fresh Ignition message and decoded into
      any ROS one comes back whole, up to its relayed header and an
      unlisted distortion model turning into "plumb_bob". */
  lemma CameraInfoRoundTrip(c: Ros.CameraInfo, dst': Ros.CameraInfo, now: Ros.Time)
    requires Ros.WellSizedCameraInfo(c) && Ros.WellSizedCameraInfo(dst')
    ensures DecodableCameraInfo(CameraInfoToIgn(c, Ign.DefaultCameraInfo))
    ensures CameraInfoToRos(CameraInfoToIgn(c, Ign.DefaultCameraInfo), dst', now)
         == c.(header := Relayed(c.header, now), distortionModel := RelayedDistortionModel(c.distortionModel))
  {
    HeaderRoundTrip(c.header, Ign.EmptyHeader, dst'.header, now);
    DistortionModelRoundTrip(c.distortionModel, Ign.PLUMB_BOB, Ign.PLUMB_BOB, dst'.distortionModel);
  }

  /** Encoding twice into the same Ignition message doubles the intrinsics,
      which the decoder then cannot take: the second message is not
      decodable. */
  lemma CameraInfoEncodeAppends(c: Ros.CameraInfo)
    requires Ros.WellSizedCameraInfo(c)
    ensures |CameraInfoToIgn(c, CameraInfoToIgn(c, Ign.DefaultCameraInfo)).intrinsics.value.k| == 18
    ensures !DecodableCameraInfo(CameraInfoToIgn(c, CameraInfoToIgn(c, Ign.DefaultCameraInfo)))
  {
  }
}

=== FILE: delimiter.dfy ===
/** The delimiter translator: a left-to-right, non-overlapping
    find-and-replace, used to turn Ignition scoped names (`a::b`) into
    ROS/TF frame names (`a/b`).  Only the Ignition-to-ROS direction exists;
    ROS frame ids are sent to Ignition untranslated.
 */
module Delimiter {
  import opened Base

  /** `pat` occurs in `s` starting at index `k`. */
  predicate OccursAt(s: string, pat: string, k: int) {
    0 <= k && k + |pat| <= |s| && s[k..k + |pat|] == pat
  }

  /** `pat` occurs nowhere in `s`. */
  predicate Absent(s: string, pat: string) {
    forall k :: 0 <= k <= |s| ==> !OccursAt(s, pat, k)
  }

  /** The translation, as a specification: at every position either the
      delimiter starts there (emit the replacement and skip it) or it does
      not (emit one character).  It only makes progress on a non-empty
      input when the delimiter is non-empty. */
  function ReplaceDelimiter(s: string, oldDelim: string, newDelim: string): (r: string)
    requires oldDelim != [] || s == []
    ensures |newDelim| <= |oldDelim| ==> |r| <= |s|
    decreases |s|
  {
    if s == [] then []
    else if oldDelim <= s then newDelim + ReplaceDelimiter(s[|oldDelim|..], oldDelim, newDelim)
    else [s[0]] + ReplaceDelimiter(s[1..], oldDelim, newDelim)
  }

  /** An occurrence at index 0 is a prefix. */
  lemma OccursAtStart(s: string, pat: string)
    ensures OccursAt(s, pat, 0) <==> pat <= s
  {
  }

  /** `std::string::find(pat, from)`: the least index at or after `from`
      where `pat` occurs, or None for `npos`. */
  function Find(s: string, pat: string, from: nat): (r: Option<nat>)
    requires from <= |s|
    ensures r.Some? ==> from <= r.value && OccursAt(s, pat, r.value)
    ensures r.Some? ==> forall k :: from <= k < r.value ==> !OccursAt(s, pat, k)
    ensures r.None? ==> forall k :: from <= k ==> !OccursAt(s, pat, k)
    decreases |s| - from
  {
    if OccursAt(s, pat, from) then Some(from)
    else if from == |s| then None
    else Find(s, pat, from + 1)
  }

  /** Positions before the next occurrence are copied through unchanged. */
  lemma {:induction false} CopyUpTo(s: string, oldDelim: string, newDelim: string, from: nat, pos: nat)
    requires oldDelim != []
    requires from <= pos <= |s|
    requires forall k :: from <= k < pos ==> !OccursAt(s, oldDelim, k)
    ensures ReplaceDelimiter(s[from..], oldDelim, newDelim)
         == s[from..pos] + ReplaceDelimiter(s[pos..], oldDelim, newDelim)
    decreases pos - from
  {
    if from < pos {
      assert !OccursAt(s, oldDelim, from);
      if from + |oldDelim| <= |s| {
        assert s[from..][..|oldDelim|] == s[from..from + |oldDelim|];
      }
      assert !(oldDelim <= s[from..]);
      assert s[from..][1..] == s[from + 1..];
      CopyUpTo(s, oldDelim, newDelim, from + 1, pos);
      assert s[from..pos] == [s[from]] + s[from + 1..pos];
    }
  }

  /** An occurrence at `pos` is replaced and skipped. */
  lemma ReplaceAt(s: string, oldDelim: string, newDelim: string, pos: nat)
    requires oldDelim != []
    requires OccursAt(s, oldDelim, pos)
    ensures ReplaceDelimiter(s[pos..], oldDelim, newDelim)
         == newDelim + ReplaceDelimiter(s[pos + |oldDelim|..], oldDelim, newDelim)
  {
    assert s[pos..][..|oldDelim|] == oldDelim;
    assert s[pos..][|oldDelim|..] == s[pos + |oldDelim|..];
  }

  /** One pass of the loop when `find` reports `npos`. */
  lemma NoMoreOccurrences(s: string, oldDelim: string, newDelim: string, from: nat)
    requires oldDelim != [] && from <= |s|
    requires Find(s, oldDelim, from).None?
    ensures ReplaceDelimiter(s[from..], oldDelim, newDelim) == s[from..]
  {
    CopyUpTo(s, oldDelim, newDelim, from, |s|);
    assert s[|s|..] == [];
    assert s[from..|s|] == s[from..];
  }

  /** One pass of the loop when `find` reports the occurrence at `p`. */
  lemma NextOccurrence(s: string, oldDelim: string, newDelim: string, from: nat, p: nat)
    requires oldDelim != [] && from <= |s|
    requires Find(s, oldDelim, from) == Some(p)
    ensures p + |oldDelim| <= |s|
    ensures ReplaceDelimiter(s[from..], oldDelim, newDelim)
         == s[from..p] + newDelim + ReplaceDelimiter(s[p + |oldDelim|..], oldDelim, newDelim)
  {
    CopyUpTo(s, oldDelim, newDelim, from, p);
    ReplaceAt(s, oldDelim, newDelim, p);
    var tail := ReplaceDelimiter(s[p + |oldDelim|..], oldDelim, newDelim);
    calc {
      ReplaceDelimiter(s[from..], oldDelim, newDelim);
      s[from..p] + ReplaceDelimiter(s[p..], oldDelim, newDelim);
      s[from..p] + (newDelim + tail);
      s[from..p] + newDelim + tail;
    }
  }

  /** `replace_delimiter` as the source writes it: a `find` loop that copies
      the text up to the next occurrence, then the replacement, and resumes
      after the occurrence.  It computes the specification. */
  method ReplaceDelimiterLoop(input: string, oldDelim: string, newDelim: string) returns (output: string)
    requires oldDelim != [] || input == []
    ensures output == ReplaceDelimiter(input, oldDelim, newDelim)
  {
    output := [];
    var lastPos: nat := 0;
    while lastPos < |input|
      invariant lastPos <= |input|
      invariant output + ReplaceDelimiter(input[lastPos..], oldDelim, newDelim)
             == ReplaceDelimiter(input, oldDelim, newDelim)
      decreases |input| - lastPos
    {
      var pos := Find(input, oldDelim, lastPos);
      match pos
      case None =>
        NoMoreOccurrences(input, oldDelim, newDelim, lastPos);
        output := output + input[lastPos..];
        lastPos := |input|;
      case Some(p) =>
        NextOccurrence(input, oldDelim, newDelim, lastPos, p);
        ghost var rest := ReplaceDelimiter(input[p + |oldDelim|..], oldDelim, newDelim);
        ghost var before := output;
        output := output + (input[lastPos..p] + newDelim);
        assert output + rest == before + (input[lastPos..p] + newDelim + rest);
        lastPos := p + |oldDelim|;
    }
  }

  /** Without an occurrence the input comes back unchanged. */
  lemma ReplaceAbsent(s: string, oldDelim: string, newDelim: string)
    requires oldDelim != []
    requires Absent(s, oldDelim)
    ensures ReplaceDelimiter(s, oldDelim, newDelim) == s
  {
    CopyUpTo(s, oldDelim, newDelim, 0, |s|);
    assert s[0..] == s && s[0..|s|] == s && s[|s|..] == [];
  }

  /** With a shorter replacement, an occurrence makes the output strictly shorter. */
  lemma ReplaceShrinks(s: string, oldDelim: string, newDelim: string)
    requires |newDelim| < |oldDelim|
    requires !Absent(s, oldDelim)
    ensures |ReplaceDelimiter(s, oldDelim, newDelim)| < |s|
  {
    var f := Find(s, oldDelim, 0);
    var p := f.value;
    CopyUpTo(s, oldDelim, newDelim, 0, p);
    ReplaceAt(s, oldDelim, newDelim, p);
    assert s[0..] == s;
    var tail := ReplaceDelimiter(s[p + |oldDelim|..], oldDelim, newDelim);
    assert ReplaceDelimiter(s, oldDelim, newDelim) == s[0..p] + (newDelim + tail);
  }

  const IgnDelimiter: string := "::"
  const RosDelimiter: string := "/"

  /** No two adjacent colons. */
  predicate NoScope(s: string) {
    forall i :: 0 <= i < |s| - 1 ==> !(s[i] == ':' && s[i + 1] == ':')
  }

  lemma NoScopeIsAbsent(s: string)
    ensures NoScope(s) <==> Absent(s, IgnDelimiter)
  {
    if !NoScope(s) {
      var i :| 0 <= i < |s| - 1 && s[i] == ':' && s[i + 1] == ':';
      assert s[i..i + 2] == IgnDelimiter;
      assert OccursAt(s, IgnDelimiter, i);
    }
    if !Absent(s, IgnDelimiter) {
      var k :| 0 <= k <= |s| && OccursAt(s, IgnDelimiter, k);
      assert s[k..k + 2][0] == s[k] && s[k..k + 2][1] == s[k + 1];
    }
  }

  /** Two leading colons are a leading delimiter. */
  lemma ScopeAtStart(s: string)
    ensures |s| >= 2 && s[0] == ':' && s[1] == ':' ==> IgnDelimiter <= s
  {
    if |s| >= 2 && s[0] == ':' && s[1] == ':' {
      assert s[..2] == IgnDelimiter;
    }
  }

  /** The translated string has no `::` left, and begins with a colon only
      where the source began with a single colon. */
  lemma {:induction false} TranslatedHasNoScope(s: string)
    ensures NoScope(ReplaceDelimiter(s, IgnDelimiter, RosDelimiter))
    ensures var r := ReplaceDelimiter(s, IgnDelimiter, RosDelimiter);
      r != [] && r[0] == ':' ==> s != [] && s[0] == ':' && !(IgnDelimiter <= s)
    decreases |s|
  {
    var r := ReplaceDelimiter(s, IgnDelimiter, RosDelimiter);
    if s == [] {
    } else if IgnDelimiter <= s {
      var rest := s[|IgnDelimiter|..];
      TranslatedHasNoScope(rest);
      assert r == RosDelimiter + ReplaceDelimiter(rest, IgnDelimiter, RosDelimiter);
    } else {
      var rest := s[1..];
      TranslatedHasNoScope(rest);
      var tail := ReplaceDelimiter(rest, IgnDelimiter, RosDelimiter);
      assert r == [s[0]] + tail;
      ScopeAtStart(s);
      assert !(s[0] == ':' && tail != [] && tail[0] == ':');
      forall i | 0 <= i < |r| - 1
        ensures !(r[i] == ':' && r[i + 1] == ':')
      {
        if i > 0 {
          assert r[i] == tail[i - 1] && r[i + 1] == tail[i];
        }
      }
    }
  }

  lemma UnscopedUnchanged(s: string)
    ensures NoScope(s) ==> ReplaceDelimiter(s, IgnDelimiter, RosDelimiter) == s
  {
    NoScopeIsAbsent(s);
    if NoScope(s) {
      ReplaceAbsent(s, IgnDelimiter, RosDelimiter);
    }
  }

  /** `frame_id_ign_to_ros`: every `::` becomes `/`.  The result holds no
      `::`, and a name without `::` comes back as it was. */
  function FrameIdIgnToRos(frameId: string): (r: string)
    ensures NoScope(r)
    ensures NoScope(frameId) ==> r == frameId
    ensures |r| <= |frameId|
  {
    TranslatedHasNoScope(frameId);
    UnscopedUnchanged(frameId);
    ReplaceDelimiter(frameId, IgnDelimiter, RosDelimiter)
  }

  /** The translation leaves a name unchanged exactly when it holds no `::`. */
  lemma FrameIdUnchangedIff(frameId: string)
    ensures FrameIdIgnToRos(frameId) == frameId <==> NoScope(frameId)
  {
    NoScopeIsAbsent(frameId);
    if !NoScope(frameId) {
      ReplaceShrinks(frameId, IgnDelimiter, RosDelimiter);
    }
  }

  /** Translating twice is translating once. */
  lemma FrameIdIdempotent(frameId: string)
    ensures FrameIdIgnToRos(FrameIdIgnToRos(frameId)) == FrameIdIgnToRos(frameId)
  {
  }

  /** `parts` joined with `sep` between consecutive parts. */
  function Join(parts: seq<string>, sep: string): string
    decreases |parts|
  {
    if |parts| == 0 then []
    else if |parts| == 1 then parts[0]
    else parts[0] + sep + Join(parts[1..], sep)
  }

  predicate NoColon(s: string) {
    forall i :: 0 <= i < |s| ==> s[i] != ':'
  }

  /** A colon-free prefix passes through untouched. */
  lemma {:induction false} ColonFreePrefix(p: string, x: string)
    requires NoColon(p)
    ensures ReplaceDelimiter(p + x, IgnDelimiter, RosDelimiter)
         == p + ReplaceDelimiter(x, IgnDelimiter, RosDelimiter)
    decreases |p|
  {
    if p != [] {
      var s := p + x;
      assert s[0] == p[0];
      assert !(IgnDelimiter <= s);
      assert s[1..] == p[1..] + x;
      ColonFreePrefix(p[1..], x);
      assert p == [p[0]] + p[1..];
    } else {
      assert p + x == x;
    }
  }

  /** A scoped name `a::b::c` whose segments hold no colon translates to the
      same segments joined by `/`: the two spellings name the same frame. */
  lemma {:induction false} FrameIdJoin(parts: seq<string>)
    requires forall i :: 0 <= i < |parts| ==> NoColon(parts[i])
    ensures FrameIdIgnToRos(Join(parts, IgnDelimiter)) == Join(parts, RosDelimiter)
    decreases |parts|
  {
    if |parts| == 0 {
    } else if |parts| == 1 {
      ColonFreePrefix(parts[0], []);
      assert parts[0] + [] == parts[0];
    } else {
      var rest := Join(parts[1..], IgnDelimiter);
      FrameIdJoin(parts[1..]);
      ColonFreePrefix(parts[0], IgnDelimiter + rest);
      var x := IgnDelimiter + rest;
      assert IgnDelimiter <= x;
      assert x[|IgnDelimiter|..] == rest;
      assert parts[0] + IgnDelimiter + rest == parts[0] + x;
    }
  }

  /** A three-segment scoped name: `a::b::c` becomes `a/b/c`. */
  lemma ScopedNameExample()
    ensures FrameIdIgnToRos("a::b::c") == "a/b/c"
  {
    var parts := ["a", "b", "c"];
    assert Join(parts[2..], IgnDelimiter) == "c";
    assert Join(parts[1..], IgnDelimiter) == "b::c";
    assert Join(parts, IgnDelimiter) == "a::b::c";
    assert Join(parts[2..], RosDelimiter) == "c";
    assert Join(parts[1..], RosDelimiter) == "b/c";
    assert Join(parts, RosDelimiter) == "a/b/c";
    FrameIdJoin(parts);
  }
}

=== FILE: enum_tables.dfy ===
/** The fixed correspondence tables between the two schemas' enumerations,
    written as exhaustive matches in both directions.

    Where the source has no `default` mapping, a value outside the table
    leaves the destination field as it was (the `current` parameter); the
    point-field datatype instead falls through to INT8 in both directions.
 */
module EnumTables {
  import opened Base
  import Ros = RosMsgs
  import Ign = IgnMsgs

  // Entity type

  predicate ListedEntityType(t: Ros.EntityType) { !t.EntityTypeOther? }
  predicate ListedIgnEntityType(t: Ign.EntityType) { !t.EntityTypeOther? }

  function EntityTypeToIgn(t: Ros.EntityType, current: Ign.EntityType): (r: Ign.EntityType)
    ensures ListedEntityType(t) ==> ListedIgnEntityType(r) && EntityTypeToRos(r, Ros.NONE) == t
    ensures !ListedEntityType(t) ==> r == current
  {
    match t
    case NONE => Ign.NONE
    case LIGHT => Ign.LIGHT
    case MODEL => Ign.MODEL
    case LINK => Ign.LINK
    case VISUAL => Ign.VISUAL
    case COLLISION => Ign.COLLISION
    case SENSOR => Ign.SENSOR
    case JOINT => Ign.JOINT
    case EntityTypeOther(_) => current
  }

  function EntityTypeToRos(t: Ign.EntityType, current: Ros.EntityType): (r: Ros.EntityType)
    ensures !ListedIgnEntityType(t) ==> r == current
  {
    match t
    case NONE => Ros.NONE
    case LIGHT => Ros.LIGHT
    case MODEL => Ros.MODEL
    case LINK => Ros.LINK
    case VISUAL => Ros.VISUAL
    case COLLISION => Ros.COLLISION
    case SENSOR => Ros.SENSOR
    case JOINT => Ros.JOINT
    case EntityTypeOther(_) => current
  }

  /** The eight entity types correspond one to one, whatever the
      destinations held. */
  lemma EntityTypeRoundTrip(t: Ros.EntityType, t': Ign.EntityType, a: Ign.EntityType, b: Ros.EntityType)
    ensures ListedEntityType(t) ==> EntityTypeToRos(EntityTypeToIgn(t, a), b) == t
    ensures ListedIgnEntityType(t') ==> EntityTypeToIgn(EntityTypeToRos(t', b), a) == t'
  {
  }

  // Pixel formats

  /** One row of the image converters' format table. */
  datatype PixelLayout = PixelLayout(encoding: string, format: Ign.PixelFormatType, channels: uint32, octetsPerChannel: uint32)

  /** The ROS-to-Ignition chain: a ROS encoding name to its layout. */
  function LayoutOfEncoding(encoding: string): (r: Option<PixelLayout>)
    ensures r.Some? ==> r.value.encoding == encoding && LayoutOfFormat(r.value.format) == r
  {
    if encoding == "mono8" then Some(PixelLayout("mono8", Ign.L_INT8, 1, 1))
    else if encoding == "mono16" then Some(PixelLayout("mono16", Ign.L_INT16, 1, 2))
    else if encoding == "rgb8" then Some(PixelLayout("rgb8", Ign.RGB_INT8, 3, 1))
    else if encoding == "rgba8" then Some(PixelLayout("rgba8", Ign.RGBA_INT8, 4, 1))
    else if encoding == "bgra8" then Some(PixelLayout("bgra8", Ign.BGRA_INT8, 4, 1))
    else if encoding == "rgb16" then Some(PixelLayout("rgb16", Ign.RGB_INT16, 3, 2))
    else if encoding == "bgr8" then Some(PixelLayout("bgr8", Ign.BGR_INT8, 3, 1))
    else if encoding == "bgr16" then Some(PixelLayout("bgr16", Ign.BGR_INT16, 3, 2))
    else if encoding == "32FC1" then Some(PixelLayout("32FC1", Ign.R_FLOAT32, 1, 4))
    else None
  }

  /** The Ignition-to-ROS chain: an Ignition pixel format to its layout. */
  function LayoutOfFormat(format: Ign.PixelFormatType): (r: Option<PixelLayout>)
    ensures r.Some? ==> r.value.format == format
    ensures r.None? <==> format.UNKNOWN_PIXEL_FORMAT? || format.PixelFormatOther?
  {
    match format
    case L_INT8 => Some(PixelLayout("mono8", Ign.L_INT8, 1, 1))
    case L_INT16 => Some(PixelLayout("mono16", Ign.L_INT16, 1, 2))
    case RGB_INT8 => Some(PixelLayout("rgb8", Ign.RGB_INT8, 3, 1))
    case RGBA_INT8 => Some(PixelLayout("rgba8", Ign.RGBA_INT8, 4, 1))
    case BGRA_INT8 => Some(PixelLayout("bgra8", Ign.BGRA_INT8, 4, 1))
    case RGB_INT16 => Some(PixelLayout("rgb16", Ign.RGB_INT16, 3, 2))
    case BGR_INT8 => Some(PixelLayout("bgr8", Ign.BGR_INT8, 3, 1))
    case BGR_INT16 => Some(PixelLayout("bgr16", Ign.BGR_INT16, 3, 2))
    case R_FLOAT32 => Some(PixelLayout("32FC1", Ign.R_FLOAT32, 1, 4))
    case _ => None
  }

  /** The two chains are the same nine-row table: every format the Ignition
      side knows is reached from exactly the encoding it reports, with the
      same channel and byte counts. */
  lemma PixelTablesAgree(format: Ign.PixelFormatType)
    ensures LayoutOfFormat(format).Some? ==> LayoutOfEncoding(LayoutOfFormat(format).value.encoding) == LayoutOfFormat(format)
  {
  }

  /** Bytes per pixel of a layout: between 1 (mono8) and 6 (rgb16, bgr16). */
  lemma PixelSizeBounds(encoding: string)
    ensures LayoutOfEncoding(encoding).Some? ==>
      var l := LayoutOfEncoding(encoding).value;
      1 <= l.channels * l.octetsPerChannel <= 6
  {
  }

  // Camera distortion model

  function DistortionModelToIgn(model: string, current: Ign.DistortionModel): (r: Ign.DistortionModel)
    ensures model in {"plumb_bob", "rational_polynomial", "equidistant"} ==> DistortionModelToRos(r, "") == model
    ensures model !in {"plumb_bob", "rational_polynomial", "equidistant"} ==> r == current
  {
    if model == "plumb_bob" then Ign.PLUMB_BOB
    else if model == "rational_polynomial" then Ign.RATIONAL_POLYNOMIAL
    else if model == "equidistant" then Ign.EQUIDISTANT
    else current
  }

  function DistortionModelToRos(model: Ign.DistortionModel, current: string): (r: string)
    ensures model.DistortionModelOther? ==> r == current
  {
    match model
    case PLUMB_BOB => "plumb_bob"
    case RATIONAL_POLYNOMIAL => "rational_polynomial"
    case EQUIDISTANT => "equidistant"
    case DistortionModelOther(_) => current
  }

  lemma DistortionModelRoundTrip(name: string, model: Ign.DistortionModel, a: Ign.DistortionModel, b: string)
    ensures name in {"plumb_bob", "rational_polynomial", "equidistant"} ==>
      DistortionModelToRos(DistortionModelToIgn(name, a), b) == name
    ensures !model.DistortionModelOther? ==> DistortionModelToIgn(DistortionModelToRos(model, b), a) == model
  {
  }

  // Point-field datatype

  function PointDatatypeToIgn(t: Ros.PointDatatype): (r: Ign.PointDatatype)
    ensures !r.PointDatatypeOther?
  {
    match t
    case UINT8 => Ign.UINT8
    case INT16 => Ign.INT16
    case UINT16 => Ign.UINT16
    case INT32 => Ign.INT32
    case UINT32 => Ign.UINT32
    case FLOAT32 => Ign.FLOAT32
    case FLOAT64 => Ign.FLOAT64
    case _ => Ign.INT8
  }

  function PointDatatypeToRos(t: Ign.PointDatatype): (r: Ros.PointDatatype)
    ensures !r.PointDatatypeOther?
  {
    match t
    case UINT8 => Ros.UINT8
    case INT16 => Ros.INT16
    case UINT16 => Ros.UINT16
    case INT32 => Ros.INT32
    case UINT32 => Ros.UINT32
    case FLOAT32 => Ros.FLOAT32
    case FLOAT64 => Ros.FLOAT64
    case _ => Ros.INT8
  }

  /** The eight kinds correspond one to one; any other value becomes INT8. */
  lemma PointDatatypeRoundTrip(t: Ros.PointDatatype, t': Ign.PointDatatype)
    ensures !t.PointDatatypeOther? ==> PointDatatypeToRos(PointDatatypeToIgn(t)) == t
    ensures t.PointDatatypeOther? ==> PointDatatypeToIgn(t) == Ign.INT8
    ensures !t'.PointDatatypeOther? ==> PointDatatypeToIgn(PointDatatypeToRos(t')) == t'
    ensures t'.PointDatatypeOther? ==> PointDatatypeToRos(t') == Ros.INT8
  {
  }

  // Battery power-supply status

  function PowerSupplyStatusToIgn(s: Ros.PowerSupplyStatus, current: Ign.PowerSupplyStatus): (r: Ign.PowerSupplyStatus)
    ensures s.PowerSupplyStatusOther? ==> r == current
  {
    match s
    case POWER_SUPPLY_STATUS_UNKNOWN => Ign.UNKNOWN
    case POWER_SUPPLY_STATUS_CHARGING => Ign.CHARGING
    case POWER_SUPPLY_STATUS_DISCHARGING => Ign.DISCHARGING
    case POWER_SUPPLY_STATUS_NOT_CHARGING => Ign.NOT_CHARGING
    case POWER_SUPPLY_STATUS_FULL => Ign.FULL
    case PowerSupplyStatusOther(_) => current
  }

  function PowerSupplyStatusToRos(s: Ign.PowerSupplyStatus, current: Ros.PowerSupplyStatus): (r: Ros.PowerSupplyStatus)
    ensures s.PowerSupplyStatusOther? ==> r == current
  {
    match s
    case UNKNOWN => Ros.POWER_SUPPLY_STATUS_UNKNOWN
    case CHARGING => Ros.POWER_SUPPLY_STATUS_CHARGING
    case DISCHARGING => Ros.POWER_SUPPLY_STATUS_DISCHARGING
    case NOT_CHARGING => Ros.POWER_SUPPLY_STATUS_NOT_CHARGING
    case FULL => Ros.POWER_SUPPLY_STATUS_FULL
    case PowerSupplyStatusOther(_) => current
  }

  /** The five statuses correspond one to one, whatever the destinations held. */
  lemma PowerSupplyStatusRoundTrip(s: Ros.PowerSupplyStatus, s': Ign.PowerSupplyStatus, a: Ign.PowerSupplyStatus, b: Ros.PowerSupplyStatus)
    ensures !s.PowerSupplyStatusOther? ==> PowerSupplyStatusToRos(PowerSupplyStatusToIgn(s, a), b) == s
    ensures !s'.PowerSupplyStatusOther? ==> PowerSupplyStatusToIgn(PowerSupplyStatusToRos(s', b), a) == s'
  {
  }
}

=== FILE: geometry.dfy ===
/** Geometry and transform converters.  Leaf types copy their coordinates;
    composites convert their parts in the source's order (position before
    orientation, header before body).  An Ignition Pose carries a header,
    which the plain Pose and Transform converters leave alone and the
    stamped ones extend.
 */
module Geometry {
  import opened Base
  import opened Headers
  import Delimiter
  import Ros = RosMsgs
  import Ign = IgnMsgs

  /** `convert_ros_to_ign(Vector3)`: undone by the decode. */
  function Vector3ToIgn(v: Ros.Vector3): (r: Ign.Vector3d)
    ensures Vector3ToRos(r) == v
  {
    Ign.Vector3d(v.x, v.y, v.z)
  }

  /** `convert_ign_to_ros(Vector3d)`: each coordinate kept, bit for bit. */
  function Vector3ToRos(v: Ign.Vector3d): (r: Ros.Vector3)
    ensures r.x == v.x && r.y == v.y && r.z == v.z
  {
    Ros.Vector3(v.x, v.y, v.z)
  }

  /** `convert_ros_to_ign(Point)`: undone by the decode. */
  function PointToIgn(p: Ros.Point): (r: Ign.Vector3d)
    ensures PointToRos(r) == p
  {
    Ign.Vector3d(p.x, p.y, p.z)
  }

  /** `convert_ign_to_ros(Vector3d, Point)`: each coordinate kept. */
  function PointToRos(v: Ign.Vector3d): (r: Ros.Point)
    ensures r.x == v.x && r.y == v.y && r.z == v.z
  {
    Ros.Point(v.x, v.y, v.z)
  }

  /** `convert_ros_to_ign(Quaternion)`: undone by the decode. */
  function QuaternionToIgn(q: Ros.Quaternion): (r: Ign.Quaternion)
    ensures QuaternionToRos(r) == q
  {
    Ign.Quaternion(q.x, q.y, q.z, q.w)
  }

  /** `convert_ign_to_ros(Quaternion)`: each component kept, `w` included. */
  function QuaternionToRos(q: Ign.Quaternion): (r: Ros.Quaternion)
    ensures r.x == q.x && r.y == q.y && r.z == q.z && r.w == q.w
  {
    Ros.Quaternion(q.x, q.y, q.z, q.w)
  }

  /** `convert_ros_to_ign(Pose)`: position, then orientation; the
      destination's header is kept. */
  function PoseToIgn(src: Ros.Pose, dst: Ign.Pose): (r: Ign.Pose)
    ensures r.header == dst.header
    ensures PoseToRos(r) == src
  {
    dst.(position := PointToIgn(src.position), orientation := QuaternionToIgn(src.orientation))
  }

  /** `convert_ign_to_ros(Pose)`: position and orientation decoded, each
      encoding back to the source's; the header is ignored. */
  function PoseToRos(src: Ign.Pose): (r: Ros.Pose)
    ensures PointToIgn(r.position) == src.position && QuaternionToIgn(r.orientation) == src.orientation
  {
    Ros.Pose(PointToRos(src.position), QuaternionToRos(src.orientation))
  }

  /** `convert_ros_to_ign(Transform)`: translation into position, rotation
      into orientation; the destination's header is kept. */
  function TransformToIgn(src: Ros.Transform, dst: Ign.Pose): (r: Ign.Pose)
    ensures r.header == dst.header
    ensures TransformToRos(r) == src
  {
    dst.(position := Vector3ToIgn(src.translation), orientation := QuaternionToIgn(src.rotation))
  }

  /** `convert_ign_to_ros(Pose, Transform)`: position into translation,
      orientation into rotation, each encoding back to the source's. */
  function TransformToRos(src: Ign.Pose): (r: Ros.Transform)
    ensures Vector3ToIgn(r.translation) == src.position && QuaternionToIgn(r.rotation) == src.orientation
  {
    Ros.Transform(Vector3ToRos(src.position), QuaternionToRos(src.orientation))
  }

  /** `convert_ros_to_ign(Twist)`: both vectors decode back. */
  function TwistToIgn(src: Ros.Twist): (r: Ign.Twist)
    ensures Vector3ToRos(r.linear) == src.linear && Vector3ToRos(r.angular) == src.angular
  {
    Ign.Twist(Vector3ToIgn(src.linear), Vector3ToIgn(src.angular))
  }

  /** `convert_ign_to_ros(Twist)`: undone by the encode. */
  function TwistToRos(src: Ign.Twist): (r: Ros.Twist)
    ensures TwistToIgn(r) == src
  {
    Ros.Twist(Vector3ToRos(src.linear), Vector3ToRos(src.angular))
  }

  /** `convert_ros_to_ign(Wrench)`: force and torque decode back. */
  function WrenchToIgn(src: Ros.Wrench): (r: Ign.Wrench)
    ensures Vector3ToRos(r.force) == src.force && Vector3ToRos(r.torque) == src.torque
  {
    Ign.Wrench(Vector3ToIgn(src.force), Vector3ToIgn(src.torque))
  }

  /** `convert_ign_to_ros(Wrench)`: undone by the encode. */
  function WrenchToRos(src: Ign.Wrench): (r: Ros.Wrench)
    ensures WrenchToIgn(r) == src
  {
    Ros.Wrench(Vector3ToRos(src.force), Vector3ToRos(src.torque))
  }

  /** The plain geometry converters are bijections: each is undone by its
      partner, in both directions.  Pose and Transform, whose Ignition form
      also has a header, come back with the destination's header. */
  lemma GeometryRoundTrips(
    v: Ros.Vector3, v': Ign.Vector3d, p: Ros.Point,
    q: Ros.Quaternion, q': Ign.Quaternion,
    pose: Ros.Pose, t: Ros.Transform, ip: Ign.Pose,
    tw: Ros.Twist, tw': Ign.Twist, w: Ros.Wrench, w': Ign.Wrench)
    ensures Vector3ToRos(Vector3ToIgn(v)) == v && Vector3ToIgn(Vector3ToRos(v')) == v'
    ensures PointToRos(PointToIgn(p)) == p && PointToIgn(PointToRos(v')) == v'
    ensures QuaternionToRos(QuaternionToIgn(q)) == q && QuaternionToIgn(QuaternionToRos(q')) == q'
    ensures PoseToRos(PoseToIgn(pose, ip)) == pose && PoseToIgn(PoseToRos(ip), ip) == ip
    ensures TransformToRos(TransformToIgn(t, ip)) == t && TransformToIgn(TransformToRos(ip), ip) == ip
    ensures TwistToRos(TwistToIgn(tw)) == tw && TwistToIgn(TwistToRos(tw')) == tw'
    ensures WrenchToRos(WrenchToIgn(w)) == w && WrenchToIgn(WrenchToRos(w')) == w'
  {
  }

  /** `convert_ros_to_ign(PoseStamped)`: the header, then the pose, into one
      Ignition Pose. */
  function PoseStampedToIgn(src: Ros.PoseStamped, dst: Ign.Pose): (r: Ign.Pose)
    ensures r.header == HeaderToIgn(src.header, dst.header)
    ensures PoseToRos(r) == src.pose
  {
    PoseToIgn(src.pose, dst.(header := HeaderToIgn(src.header, dst.header)))
  }

  function PoseStampedToRos(src: Ign.Pose, dst: Ros.PoseStamped, now: Ros.Time): (r: Ros.PoseStamped)
    ensures r.header == HeaderToRos(src.header, dst.header, now)
    ensures r.pose == PoseToRos(src)
  {
    Ros.PoseStamped(HeaderToRos(src.header, dst.header, now), PoseToRos(src))
  }

  /** A stamped pose survives the round trip up to the relayed header. */
  lemma PoseStampedRoundTrip(ps: Ros.PoseStamped, dst: Ign.Pose, dst': Ros.PoseStamped, now: Ros.Time)
    ensures PoseStampedToRos(PoseStampedToIgn(ps, dst), dst', now) == ps.(header := Relayed(ps.header, now))
  {
    HeaderRoundTrip(ps.header, dst.header, dst'.header, now);
  }

  /** `convert_ros_to_ign(TransformStamped)`: header, transform, then a
      `child_frame_id` pair after the header's `frame_id` pair. */
  function TransformStampedToIgn(src: Ros.TransformStamped, dst: Ign.Pose): (r: Ign.Pose)
    ensures r.header == StampedHeaderToIgn(src.header, src.childFrameId, dst.header)
    ensures TransformToRos(r) == src.transform
  {
    var withHeader := dst.(header := HeaderToIgn(src.header, dst.header));
    var withBody := TransformToIgn(src.transform, withHeader);
    withBody.(header := AppendPair(withBody.header, ChildFrameIdKey, src.childFrameId))
  }

  /** `convert_ign_to_ros(TransformStamped)`: header, transform, and the
      first accepted `child_frame_id`, else the destination's own. */
  function TransformStampedToRos(src: Ign.Pose, dst: Ros.TransformStamped, now: Ros.Time): (r: Ros.TransformStamped)
    ensures r.header == HeaderToRos(src.header, dst.header, now)
    ensures r.transform == TransformToRos(src)
    ensures r.childFrameId == ChildFrameIdToRos(src.header, dst.childFrameId)
  {
    Ros.TransformStamped(
      HeaderToRos(src.header, dst.header, now),
      ChildFrameIdToRos(src.header, dst.childFrameId),
      TransformToRos(src))
  }

  /** The stamped transform after a trip through Ignition: relayed header
      and translated child frame. */
  function RelayedTransform(t: Ros.TransformStamped, now: Ros.Time): Ros.TransformStamped {
    t.(header := Relayed(t.header, now), childFrameId := Delimiter.FrameIdIgnToRos(t.childFrameId))
  }

  /** Round trip of a stamped transform through a destination whose header
      has no `child_frame_id` pair yet (a fresh one, say). */
  lemma TransformStampedRoundTrip(t: Ros.TransformStamped, dst: Ign.Pose, dst': Ros.TransformStamped, now: Ros.Time)
    requires NoneCarries(dst.header.data, ChildFrameIdKey, 0)
    ensures TransformStampedToRos(TransformStampedToIgn(t, dst), dst', now) == RelayedTransform(t, now)
  {
    StampedHeaderRoundTrip(t.header, t.childFrameId, dst.header, dst'.header, dst'.childFrameId, now);
  }

  /** `convert_ros_to_ign(TFMessage)`: the pose list is cleared and refilled,
      one fresh Pose per transform in order; the message header is encoded
      from the first transform's header when there is one. */
  function TFMessageToIgn(src: Ros.TFMessage, dst: Ign.PoseV): (r: Ign.PoseV)
    ensures |r.pose| == |src.transforms|
    ensures forall i :: 0 <= i < |src.transforms| ==> r.pose[i] == TransformStampedToIgn(src.transforms[i], Ign.DefaultPose)
    ensures src.transforms == [] ==> r.header == dst.header
    ensures src.transforms != [] ==> r.header == HeaderToIgn(src.transforms[0].header, dst.header)
  {
    Ign.PoseV(
      if src.transforms == [] then dst.header else HeaderToIgn(src.transforms[0].header, dst.header),
      Map((t: Ros.TransformStamped) => TransformStampedToIgn(t, Ign.DefaultPose), src.transforms))
  }

  /** `convert_ign_to_ros(TFMessage)`: the transform list is cleared and
      refilled, one fresh TransformStamped per pose in order. */
  function TFMessageToRos(src: Ign.PoseV, now: Ros.Time): (r: Ros.TFMessage)
    ensures |r.transforms| == |src.pose|
    ensures forall i :: 0 <= i < |src.pose| ==>
              r.transforms[i] == TransformStampedToRos(src.pose[i], Ros.DefaultTransformStamped, now)
  {
    Ros.TFMessage(Map((p: Ign.Pose) => TransformStampedToRos(p, Ros.DefaultTransformStamped, now), src.pose))
  }

  /** Whatever the destination held, a TF message comes back with the same
      number of transforms, each one relayed: the lists are cleared, not
      appended to. */
  lemma TFMessageRoundTrip(m: Ros.TFMessage, dst: Ign.PoseV, now: Ros.Time)
    ensures TFMessageToRos(TFMessageToIgn(m, dst), now).transforms
         == Map((t: Ros.TransformStamped) => RelayedTransform(t, now), m.transforms)
  {
    var r := TFMessageToRos(TFMessageToIgn(m, dst), now).transforms;
    forall i | 0 <= i < |m.transforms|
      ensures r[i] == RelayedTransform(m.transforms[i], now)
    {
      TransformStampedRoundTrip(m.transforms[i], Ign.DefaultPose, Ros.DefaultTransformStamped, now);
    }
  }
}

=== FILE: headers.dfy ===
/** The header side-channel.  The Ignition header has a stamp and a list of
    (key, values) pairs but no frame field, so the ROS `frame_id` (and, for
    stamped transforms and odometry, the `child_frame_id`) travel as pairs.

    Encoding appends a pair and never translates.  Decoding scans the pairs:
    for `frame_id` every matching pair overwrites the result, so the LAST one
    wins; for `child_frame_id` the scan stops at the FIRST one.  Only pairs
    with at least one value count, and only their first value is used,
    translated from `::` to `/`.  The decoded stamp is passed in as `now`; the
    source derives it from the wall clock as the whole seconds, with
    `nanosecs % secs` (not the sub-second part) as the nanoseconds.
 */
module Headers {
  import opened Base
  import opened Delimiter
  import Ros = RosMsgs
  import Ign = IgnMsgs

  const FrameIdKey: string := "frame_id"
  const ChildFrameIdKey: string := "child_frame_id"

  /** A pair the decoder accepts for `key`. */
  predicate Carries(p: Ign.Pair, key: string) {
    p.key == key && |p.value| > 0
  }

  /** No pair in `data[from..]` is accepted for `key`. */
  predicate NoneCarries(data: seq<Ign.Pair>, key: string, from: nat) {
    forall k :: from <= k < |data| ==> !Carries(data[k], key)
  }

  /** The stamp of an encoded header: seconds widen to int64, and the uint32
      nanoseconds land in the int32 `nsec` field. */
  function StampToIgn(t: Ros.Time): (r: Ign.Time)
    ensures r.sec == t.sec
    ensures t.nanosec < 1_000_000_000 ==> r.nsec == t.nanosec
  {
    Ign.Time(t.sec, U32ToI32(t.nanosec))
  }

  /** Appends one (key, [value]) pair after the pairs already present. */
  function AppendPair(h: Ign.Header, key: string, value: string): (r: Ign.Header)
    ensures r.stamp == h.stamp
    ensures |r.data| == |h.data| + 1 && r.data[..|h.data|] == h.data
    ensures Carries(r.data[|h.data|], key) && r.data[|h.data|].value == [value]
  {
    h.(data := h.data + [Ign.Pair(key, [value])])
  }

  /** `convert_ros_to_ign(Header)`: copies the stamp and appends the frame id,
      untranslated, after whatever pairs the destination already holds. */
  function HeaderToIgn(src: Ros.Header, dst: Ign.Header): (r: Ign.Header)
    ensures r.stamp == StampToIgn(src.stamp)
    ensures r.data == dst.data + [Ign.Pair(FrameIdKey, [src.frameId])]
  {
    AppendPair(dst.(stamp := StampToIgn(src.stamp)), FrameIdKey, src.frameId)
  }

  /** The decode loop for `frame_id`, from index `i` on with the result so
      far `current`: every accepted pair overwrites, so the last one wins,
      and without one the result is `current`. */
  function ScanLast(data: seq<Ign.Pair>, key: string, i: nat, current: string): (r: string)
    requires i <= |data|
    ensures NoneCarries(data, key, i) ==> r == current
    ensures forall k :: i <= k < |data| && Carries(data[k], key) && NoneCarries(data, key, k + 1)
              ==> r == FrameIdIgnToRos(data[k].value[0])
    decreases |data| - i
  {
    if i == |data| then current
    else ScanLast(data, key, i + 1, if Carries(data[i], key) then FrameIdIgnToRos(data[i].value[0]) else current)
  }

  /** The decode loop for `child_frame_id`, from index `i` on: it stops at
      the first accepted pair, and without one the result is `current`. */
  function ScanFirst(data: seq<Ign.Pair>, key: string, i: nat, current: string): (r: string)
    requires i <= |data|
    ensures NoneCarries(data, key, i) ==> r == current
    ensures forall k :: i <= k < |data| && Carries(data[k], key) && (forall j :: i <= j < k ==> !Carries(data[j], key))
              ==> r == FrameIdIgnToRos(data[k].value[0])
    decreases |data| - i
  {
    if i == |data| then current
    else if Carries(data[i], key) then FrameIdIgnToRos(data[i].value[0])
    else ScanFirst(data, key, i + 1, current)
  }

  /** `convert_ign_to_ros(Header)`: the stamp is the clock reading `now`;
      the frame id is the translated first value of the last accepted
      `frame_id` pair, or the destination's own when there is none. */
  function HeaderToRos(src: Ign.Header, dst: Ros.Header, now: Ros.Time): (r: Ros.Header)
    ensures r.stamp == now
    ensures NoneCarries(src.data, FrameIdKey, 0) ==> r.frameId == dst.frameId
    ensures forall k :: 0 <= k < |src.data| && Carries(src.data[k], FrameIdKey) && NoneCarries(src.data, FrameIdKey, k + 1)
              ==> r.frameId == FrameIdIgnToRos(src.data[k].value[0])
  {
    Ros.Header(now, ScanLast(src.data, FrameIdKey, 0, dst.frameId))
  }

  /** The child-frame decode loop of TransformStamped and Odometry: the
      translated first value of the first accepted `child_frame_id` pair, or
      `current` when there is none. */
  function ChildFrameIdToRos(src: Ign.Header, current: string): (r: string)
    ensures NoneCarries(src.data, ChildFrameIdKey, 0) ==> r == current
    ensures forall k :: 0 <= k < |src.data| && Carries(src.data[k], ChildFrameIdKey)
              && (forall j :: 0 <= j < k ==> !Carries(src.data[j], ChildFrameIdKey))
              ==> r == FrameIdIgnToRos(src.data[k].value[0])
  {
    ScanFirst(src.data, ChildFrameIdKey, 0, current)
  }

  /** The ROS header a trip through Ignition and back produces: the clock
      reading as stamp and the frame id with every `::` turned into `/`. */
  function Relayed(h: Ros.Header, now: Ros.Time): Ros.Header {
    Ros.Header(now, FrameIdIgnToRos(h.frameId))
  }

  /** Encoding then decoding a header returns the translated frame id, even
      when the destination already held `frame_id` pairs (ours comes last);
      a frame id without `::` therefore comes back unchanged. */
  lemma HeaderRoundTrip(h: Ros.Header, dst: Ign.Header, dst': Ros.Header, now: Ros.Time)
    ensures HeaderToRos(HeaderToIgn(h, dst), dst', now) == Relayed(h, now)
    ensures NoScope(h.frameId) ==> HeaderToRos(HeaderToIgn(h, dst), dst', now) == h.(stamp := now)
  {
    var data := HeaderToIgn(h, dst).data;
    var k := |dst.data|;
    assert Carries(data[k], FrameIdKey) && NoneCarries(data, FrameIdKey, k + 1);
  }

  /** The frame-id pair is never read as a child frame id. */
  lemma KeysDiffer()
    ensures FrameIdKey != ChildFrameIdKey
  {
    assert |FrameIdKey| != |ChildFrameIdKey|;
  }

  /** A header encoded by a stamped converter: the frame-id pair, then the
      child-frame-id pair, after the pairs already present. */
  function StampedHeaderToIgn(h: Ros.Header, child: string, dst: Ign.Header): (r: Ign.Header)
    ensures r.data == dst.data + [Ign.Pair(FrameIdKey, [h.frameId]), Ign.Pair(ChildFrameIdKey, [child])]
  {
    AppendPair(HeaderToIgn(h, dst), ChildFrameIdKey, child)
  }

  /** Both frame names of a stamped message come back translated, provided
      the destination header held no `child_frame_id` pair of its own. */
  lemma StampedHeaderRoundTrip(h: Ros.Header, child: string, dst: Ign.Header, dst': Ros.Header, current: string, now: Ros.Time)
    requires NoneCarries(dst.data, ChildFrameIdKey, 0)
    ensures HeaderToRos(StampedHeaderToIgn(h, child, dst), dst', now) == Relayed(h, now)
    ensures ChildFrameIdToRos(StampedHeaderToIgn(h, child, dst), current) == FrameIdIgnToRos(child)
  {
    KeysDiffer();
    var data := StampedHeaderToIgn(h, child, dst).data;
    var k := |dst.data|;
    assert Carries(data[k], FrameIdKey) && NoneCarries(data, FrameIdKey, k + 1);
    assert Carries(data[k + 1], ChildFrameIdKey);
    assert forall j :: 0 <= j < k + 1 ==> !Carries(data[j], ChildFrameIdKey);
  }

  /** Because the child frame is decoded first-match-wins while encoding
      appends, a `child_frame_id` pair already in the destination header
      shadows the one just encoded. */
  lemma StaleChildFrameWins(h: Ros.Header, child: string, dst: Ign.Header, current: string, k: nat)
    requires k < |dst.data| && Carries(dst.data[k], ChildFrameIdKey)
    requires forall j :: 0 <= j < k ==> !Carries(dst.data[j], ChildFrameIdKey)
    ensures ChildFrameIdToRos(StampedHeaderToIgn(h, child, dst), current) == FrameIdIgnToRos(dst.data[k].value[0])
  {
    var data := StampedHeaderToIgn(h, child, dst).data;
    assert data[k] == dst.data[k];
    assert forall j :: 0 <= j < k ==> data[j] == dst.data[j];
  }
}

=== FILE: ign_msgs.dfy ===
/** The Ignition (protobuf) side of the bridge, restricted to the fields some
    converter touches.  The header has no frame field: extra string data
    travel as (key, list of values) pairs.  Enumerations are datatypes with
    the variants the converters name, plus one variant for every other wire
    value.  Optional sub-messages whose presence a converter tests are
    `Option`s; all others read as their default when absent, so they are
    plain fields.
 */
module IgnMsgs {
  import opened Base

  datatype Time = Time(sec: int64, nsec: int32)
  datatype Duration = Duration(sec: int64, nsec: int32)

  datatype Pair = Pair(key: string, value: seq<string>)
  datatype Header = Header(stamp: Time, data: seq<Pair>)

  datatype Boolean = Boolean(data: bool)
  datatype UInt32 = UInt32(data: uint32)
  datatype Int32 = Int32(data: int32)
  datatype Float = Float(data: float32)
  datatype Double = Double(data: float64)
  datatype StringMsg = StringMsg(data: string)
  datatype Clock = Clock(sim: Time)

  datatype Vector3d = Vector3d(x: float64, y: float64, z: float64)
  datatype Quaternion = Quaternion(x: float64, y: float64, z: float64, w: float64)
  datatype Pose = Pose(header: Header, position: Vector3d, orientation: Quaternion)
  datatype PoseV = PoseV(header: Header, pose: seq<Pose>)
  datatype Twist = Twist(linear: Vector3d, angular: Vector3d)
  datatype Wrench = Wrench(force: Vector3d, torque: Vector3d)

  datatype JointWrench = JointWrench(
    header: Header,
    body1Name: string,
    body2Name: string,
    body1Id: uint32,
    body2Id: uint32,
    body1Wrench: Wrench,
    body2Wrench: Wrench)

  datatype EntityType =
    | NONE | LIGHT | MODEL | LINK | VISUAL | COLLISION | SENSOR | JOINT
    | EntityTypeOther(code: UnlistedEntityCode)

  /** The eight named entity types have codes 0 to 7. */
  type UnlistedEntityCode = c: int | c < 0 || 8 <= c witness 8

  datatype Entity = Entity(id: uint64, name: string, entityType: EntityType)

  datatype Contact = Contact(
    collision1: Entity,
    collision2: Entity,
    position: seq<Vector3d>,
    normal: seq<Vector3d>,
    depth: seq<float64>,
    wrench: seq<JointWrench>)

  datatype Contacts = Contacts(header: Header, contact: seq<Contact>)

  datatype Odometry = Odometry(header: Header, pose: Pose, twist: Twist)

  datatype FluidPressure = FluidPressure(header: Header, pressure: float64, variance: float64)

  /** The pixel formats the image converters name; every other format
      (RGB_INT32, the Bayer formats, ...) is `PixelFormatOther`. */
  datatype PixelFormatType =
    | UNKNOWN_PIXEL_FORMAT
    | L_INT8 | L_INT16 | RGB_INT8 | RGBA_INT8 | BGRA_INT8 | RGB_INT16 | BGR_INT8 | BGR_INT16 | R_FLOAT32
    | PixelFormatOther(code: UnlistedPixelFormatCode)

  /** Codes of the ten formats named above. */
  const ListedPixelFormatCodes: set<int> := {0, 1, 2, 3, 4, 5, 6, 8, 9, 13}

  type UnlistedPixelFormatCode = c: int | c !in ListedPixelFormatCodes witness 7

  datatype Image = Image(
    header: Header,
    width: uint32,
    height: uint32,
    pixelFormatType: PixelFormatType,
    step: uint32,
    data: seq<uint8>)

  datatype DistortionModel =
    | PLUMB_BOB | RATIONAL_POLYNOMIAL | EQUIDISTANT
    | DistortionModelOther(code: UnlistedDistortionModelCode)

  /** The three named models have codes 0 to 2. */
  type UnlistedDistortionModelCode = c: int | c < 0 || 3 <= c witness 3

  datatype Distortion = Distortion(model: DistortionModel, k: seq<float64>)
  datatype Intrinsics = Intrinsics(k: seq<float64>)
  datatype Projection = Projection(p: seq<float64>)

  datatype CameraInfo = CameraInfo(
    header: Header,
    width: uint32,
    height: uint32,
    distortion: Option<Distortion>,
    intrinsics: Option<Intrinsics>,
    projection: Option<Projection>,
    rectificationMatrix: seq<float64>)

  datatype IMU = IMU(
    header: Header,
    entityName: string,
    orientation: Quaternion,
    angularVelocity: Vector3d,
    linearAcceleration: Vector3d)

  datatype Magnetometer = Magnetometer(header: Header, fieldTesla: Vector3d)

  datatype Axis = Axis(position: float64, velocity: float64, force: float64)
  datatype Joint = Joint(name: string, axis1: Axis)
  datatype Model = Model(header: Header, joint: seq<Joint>)

  datatype LaserScan = LaserScan(
    header: Header,
    frame: string,
    angleMin: float64,
    angleMax: float64,
    angleStep: float64,
    rangeMin: float64,
    rangeMax: float64,
    count: uint32,
    verticalAngleMin: float64,
    verticalAngleMax: float64,
    verticalAngleStep: float64,
    verticalCount: uint32,
    ranges: seq<float64>,
    intensities: seq<float64>)

  datatype PointDatatype =
    | INT8 | UINT8 | INT16 | UINT16 | INT32 | UINT32 | FLOAT32 | FLOAT64
    | PointDatatypeOther(code: UnlistedPointDatatypeCode)

  /** The eight named datatypes have codes 0 to 7. */
  type UnlistedPointDatatypeCode = c: int | c < 0 || 8 <= c witness 8

  datatype Field = Field(name: string, offset: uint32, pointType: PointDatatype, count: uint32)

  datatype PointCloudPacked = PointCloudPacked(
    header: Header,
    field: seq<Field>,
    height: uint32,
    width: uint32,
    isBigendian: bool,
    pointStep: uint32,
    rowStep: uint32,
    data: seq<uint8>,
    isDense: bool)

  datatype PowerSupplyStatus =
    | UNKNOWN | CHARGING | DISCHARGING | NOT_CHARGING | FULL
    | PowerSupplyStatusOther(code: UnlistedPowerSupplyStatusCode)

  /** The five named statuses have codes 0 to 4. */
  type UnlistedPowerSupplyStatusCode = c: int | c < 0 || 5 <= c witness 5

  datatype BatteryState = BatteryState(
    header: Header,
    voltage: float64,
    current: float64,
    charge: float64,
    capacity: float64,
    percentage: float64,
    powerSupplyStatus: PowerSupplyStatus)

  datatype JointTrajectoryPoint = JointTrajectoryPoint(
    positions: seq<float64>,
    velocities: seq<float64>,
    accelerations: seq<float64>,
    effort: seq<float64>,
    timeFromStart: Duration)

  datatype JointTrajectory = JointTrajectory(header: Header, jointNames: seq<string>, points: seq<JointTrajectoryPoint>)

  // Default-constructed messages, as `add_*()` and `mutable_*()` create them.

  const EmptyHeader := Header(Time(0, 0), [])
  const ZeroVector3d := Vector3d(Zero64, Zero64, Zero64)
  const ZeroWrench := Wrench(ZeroVector3d, ZeroVector3d)
  const DefaultPose := Pose(EmptyHeader, ZeroVector3d, Quaternion(Zero64, Zero64, Zero64, Zero64))
  const DefaultJointWrench := JointWrench(EmptyHeader, "", "", 0, 0, ZeroWrench, ZeroWrench)
  const DefaultEntity := Entity(0, "", NONE)
  const DefaultContact := Contact(DefaultEntity, DefaultEntity, [], [], [], [])
  const DefaultJointTrajectoryPoint := JointTrajectoryPoint([], [], [], [], Duration(0, 0))
  /** A protobuf enum field defaults to its zero value, PLUMB_BOB here. */
  const DefaultDistortion := Distortion(PLUMB_BOB, [])
  const DefaultCameraInfo := CameraInfo(EmptyHeader, 0, 0, None, None, None, [])
}

=== FILE: laser_scan.dfy ===
/** Laser-scan converters.

    Encoding: the number of readings is computed by the source from the
    angles with floating-point arithmetic; here it is the parameter
    `numReadings`.  That many ranges and intensities are widened and
    APPENDED, and the vertical fields are zeroed.

    Decoding: of a multi-beam scan only the middle beam is kept.  It starts
    at `(vertical_count / 2) * count`, a 32-bit unsigned product, and is
    `count` readings long; the source copies them without a bounds check,
    so they must exist.  The frame name comes from the scan's `frame`
    field, not from the header pairs.
 */
module LaserScan {
  import opened Base
  import opened Headers
  import Delimiter
  import Ros = RosMsgs
  import Ign = IgnMsgs

  /** `convert_ros_to_ign(LaserScan)`. */
  function LaserScanToIgn(src: Ros.LaserScan, dst: Ign.LaserScan, numReadings: uint32, widen: float32 -> float64): (r: Ign.LaserScan)
    requires numReadings <= |src.ranges| && numReadings <= |src.intensities|
    ensures r.header == HeaderToIgn(src.header, dst.header)
    ensures r.frame == src.header.frameId
    ensures r.angleMin == widen(src.angleMin) && r.angleMax == widen(src.angleMax) && r.angleStep == widen(src.angleIncrement)
    ensures r.rangeMin == widen(src.rangeMin) && r.rangeMax == widen(src.rangeMax)
    ensures r.count == numReadings
    ensures r.verticalAngleMin == Zero64 && r.verticalAngleMax == Zero64 && r.verticalAngleStep == Zero64
    ensures r.verticalCount == 0
    ensures |r.ranges| == |dst.ranges| + numReadings && r.ranges[..|dst.ranges|] == dst.ranges
    ensures |r.intensities| == |dst.intensities| + numReadings && r.intensities[..|dst.intensities|] == dst.intensities
    ensures forall i :: 0 <= i < numReadings ==>
              r.ranges[|dst.ranges| + i] == widen(src.ranges[i]) && r.intensities[|dst.intensities| + i] == widen(src.intensities[i])
  {
    Ign.LaserScan(
      HeaderToIgn(src.header, dst.header),
      src.header.frameId,
      widen(src.angleMin), widen(src.angleMax), widen(src.angleIncrement),
      widen(src.rangeMin), widen(src.rangeMax),
      numReadings,
      Zero64, Zero64, Zero64, 0,
      dst.ranges + Map(widen, src.ranges[..numReadings]),
      dst.intensities + Map(widen, src.intensities[..numReadings]))
  }

  /** Index of the first reading of the middle beam. */
  function BeamStart(scan: Ign.LaserScan): (r: uint32)
    ensures scan.verticalCount <= 1 ==> r == 0
    ensures (scan.verticalCount / 2) * scan.count < 0x1_0000_0000 ==> r == (scan.verticalCount / 2) * scan.count
    ensures ((scan.verticalCount / 2) * scan.count - r) % 0x1_0000_0000 == 0
  {
    MulU32(scan.verticalCount / 2, scan.count)
  }

  /** What the Ignition-to-ROS scan converter needs: the middle beam lies
      within both lists. */
  predicate DecodableScan(scan: Ign.LaserScan) {
    BeamStart(scan) + scan.count <= |scan.ranges| && BeamStart(scan) + scan.count <= |scan.intensities|
  }

  /** `convert_ign_to_ros(LaserScan)`. */
  function LaserScanToRos(src: Ign.LaserScan, dst: Ros.LaserScan, now: Ros.Time, narrow: float64 -> float32): (r: Ros.LaserScan)
    requires DecodableScan(src)
    ensures r.header.stamp == now && r.header.frameId == Delimiter.FrameIdIgnToRos(src.frame)
    ensures r.angleMin == narrow(src.angleMin) && r.angleMax == narrow(src.angleMax) && r.angleIncrement == narrow(src.angleStep)
    ensures r.timeIncrement == Zero32 && r.scanTime == Zero32
    ensures r.rangeMin == narrow(src.rangeMin) && r.rangeMax == narrow(src.rangeMax)
    ensures |r.ranges| == src.count && |r.intensities| == src.count
    ensures forall i :: 0 <= i < src.count ==>
              r.ranges[i] == narrow(src.ranges[BeamStart(src) + i]) && r.intensities[i] == narrow(src.intensities[BeamStart(src) + i])
  {
    var start := BeamStart(src);
    var header := HeaderToRos(src.header, dst.header, now);
    Ros.LaserScan(
      header.(frameId := Delimiter.FrameIdIgnToRos(src.frame)),
      narrow(src.angleMin), narrow(src.angleMax), narrow(src.angleStep),
      Zero32, Zero32,
      narrow(src.rangeMin), narrow(src.rangeMax),
      Map(narrow, src.ranges[start..start + src.count]),
      Map(narrow, src.intensities[start..start + src.count]))
  }

  /** Through an Ignition scan with no readings yet, a ROS scan comes back
      with its header relayed, the two timing fields zeroed, and the first
      `numReadings` readings; the casts quiet any signalling NaN. */
  lemma LaserScanRoundTrip(
    s: Ros.LaserScan, dst: Ign.LaserScan, dst': Ros.LaserScan, now: Ros.Time, numReadings: uint32,
    widen: float32 -> float64, narrow: float64 -> float32)
    requires NarrowAfterWiden(widen, narrow)
    requires numReadings <= |s.ranges| && numReadings <= |s.intensities|
    requires dst.ranges == [] && dst.intensities == []
    ensures DecodableScan(LaserScanToIgn(s, dst, numReadings, widen))
    ensures LaserScanToRos(LaserScanToIgn(s, dst, numReadings, widen), dst', now, narrow)
         == s.(header := Relayed(s.header, now),
               angleMin := Quieted(s.angleMin), angleMax := Quieted(s.angleMax),
               angleIncrement := Quieted(s.angleIncrement),
               timeIncrement := Zero32, scanTime := Zero32,
               rangeMin := Quieted(s.rangeMin), rangeMax := Quieted(s.rangeMax),
               ranges := Map(Quieted, s.ranges[..numReadings]),
               intensities := Map(Quieted, s.intensities[..numReadings]))
  {
    var e := LaserScanToIgn(s, dst, numReadings, widen);
    assert e.ranges == Map(widen, s.ranges[..numReadings]);
    assert e.intensities == Map(widen, s.intensities[..numReadings]);
    assert forall x :: narrow(widen(x)) == Quieted(x);
    MapCompose(widen, narrow, Quieted, s.ranges[..numReadings]);
    MapCompose(widen, narrow, Quieted, s.intensities[..numReadings]);
    assert e.ranges[0..0 + numReadings] == e.ranges;
    assert e.intensities[0..0 + numReadings] == e.intensities;
  }

  /** Because encoding appends and decoding reads from the front, a scan
      encoded into a message that already held readings decodes to the OLD
      readings. */
  lemma StaleReadingsRead(
    s: Ros.LaserScan, dst: Ign.LaserScan, dst': Ros.LaserScan, now: Ros.Time, numReadings: uint32,
    widen: float32 -> float64, narrow: float64 -> float32)
    requires numReadings <= |s.ranges| && numReadings <= |s.intensities|
    requires numReadings <= |dst.ranges| && numReadings <= |dst.intensities|
    ensures DecodableScan(LaserScanToIgn(s, dst, numReadings, widen))
    ensures LaserScanToRos(LaserScanToIgn(s, dst, numReadings, widen), dst', now, narrow).ranges
         == Map(narrow, dst.ranges[..numReadings])
  {
    var e := LaserScanToIgn(s, dst, numReadings, widen);
    assert e.ranges[0..0 + numReadings] == dst.ranges[..numReadings];
  }

  /** A three-beam scan of five readings per beam yields readings 5 to 9. */
  lemma MiddleBeamExample(scan: Ign.LaserScan, dst: Ros.LaserScan, now: Ros.Time, narrow: float64 -> float32)
    requires scan.verticalCount == 3 && scan.count == 5 && |scan.ranges| == 15 && |scan.intensities| == 15
    ensures DecodableScan(scan) && BeamStart(scan) == 5
    ensures LaserScanToRos(scan, dst, now, narrow).ranges == Map(narrow, scan.ranges[5..10])
  {
  }
}

=== FILE: physics.dfy ===
/** Converters for the simulator's contact reports: joint wrenches, entities,
    single contacts and contact lists.

    Two behaviours of the source are kept on purpose.  Encoding a contact
    fills BOTH Ignition collision entities from the ROS `collision1`, so the
    second collision is lost on the way to Ignition.  And the list fields
    are handled unevenly: encoding clears and refills positions, normals and
    wrenches but only appends depths; decoding appends to every list.
 */
module Physics {
  import opened Base
  import opened Headers
  import opened EnumTables
  import opened Geometry
  import Delimiter
  import Ros = RosMsgs
  import Ign = IgnMsgs

  /** `convert_ros_to_ign(JointWrench)`: header, then names, ids and the two
      wrenches, each unwrapped from its ROS wrapper message. */
  function JointWrenchToIgn(src: Ros.JointWrench, dst: Ign.JointWrench): (r: Ign.JointWrench)
    ensures r.header == HeaderToIgn(src.header, dst.header)
    ensures r.body1Name == src.body1Name.data && r.body2Name == src.body2Name.data
    ensures r.body1Id == src.body1Id.data && r.body2Id == src.body2Id.data
    ensures WrenchToRos(r.body1Wrench) == src.body1Wrench && WrenchToRos(r.body2Wrench) == src.body2Wrench
  {
    Ign.JointWrench(
      HeaderToIgn(src.header, dst.header),
      src.body1Name.data, src.body2Name.data,
      src.body1Id.data, src.body2Id.data,
      WrenchToIgn(src.body1Wrench), WrenchToIgn(src.body2Wrench))
  }

  /** `convert_ign_to_ros(JointWrench)`. */
  function JointWrenchToRos(src: Ign.JointWrench, dst: Ros.JointWrench, now: Ros.Time): (r: Ros.JointWrench)
    ensures r.header == HeaderToRos(src.header, dst.header, now)
    ensures r.body1Name.data == src.body1Name && r.body2Name.data == src.body2Name
    ensures r.body1Id.data == src.body1Id && r.body2Id.data == src.body2Id
    ensures WrenchToIgn(r.body1Wrench) == src.body1Wrench && WrenchToIgn(r.body2Wrench) == src.body2Wrench
  {
    Ros.JointWrench(
      HeaderToRos(src.header, dst.header, now),
      Ros.String(src.body1Name), Ros.String(src.body2Name),
      Ros.UInt32(src.body1Id), Ros.UInt32(src.body2Id),
      WrenchToRos(src.body1Wrench), WrenchToRos(src.body2Wrench))
  }

  /** A joint wrench survives the round trip up to its relayed header. */
  lemma JointWrenchRoundTrip(w: Ros.JointWrench, dst: Ign.JointWrench, dst': Ros.JointWrench, now: Ros.Time)
    ensures JointWrenchToRos(JointWrenchToIgn(w, dst), dst', now) == w.(header := Relayed(w.header, now))
  {
    HeaderRoundTrip(w.header, dst.header, dst'.header, now);
  }

  /** `convert_ros_to_ign(Entity)`: id and name copied; the type goes through
      the entity-type table and is left as it was when unlisted. */
  function EntityToIgn(src: Ros.Entity, dst: Ign.Entity): (r: Ign.Entity)
    ensures r.id == src.id && r.name == src.name
    ensures ListedEntityType(src.entityType) ==> EntityTypeToRos(r.entityType, Ros.NONE) == src.entityType
    ensures !ListedEntityType(src.entityType) ==> r.entityType == dst.entityType
  {
    Ign.Entity(src.id, src.name, EntityTypeToIgn(src.entityType, dst.entityType))
  }

  /** `convert_ign_to_ros(Entity)`. */
  function EntityToRos(src: Ign.Entity, dst: Ros.Entity): (r: Ros.Entity)
    ensures r.id == src.id && r.name == src.name
    ensures !ListedIgnEntityType(src.entityType) ==> r.entityType == dst.entityType
  {
    Ros.Entity(src.id, src.name, EntityTypeToRos(src.entityType, dst.entityType))
  }

  /** An entity through fresh destinations on both sides: an unlisted type
      comes back as the default, NONE. */
  function RelayedEntity(e: Ros.Entity): Ros.Entity {
    if ListedEntityType(e.entityType) then e else e.(entityType := Ros.NONE)
  }

  /** An entity with a listed type survives any round trip; any entity
      survives a round trip through fresh messages up to its type. */
  lemma EntityRoundTrip(e: Ros.Entity, dst: Ign.Entity, dst': Ros.Entity)
    ensures ListedEntityType(e.entityType) ==> EntityToRos(EntityToIgn(e, dst), dst') == e
    ensures EntityToRos(EntityToIgn(e, Ign.DefaultEntity), Ros.DefaultEntity) == RelayedEntity(e)
  {
    EntityTypeRoundTrip(e.entityType, Ign.NONE, dst.entityType, dst'.entityType);
  }

  /** `convert_ros_to_ign(Contact)`: both collisions from `collision1`;
      positions, normals and wrenches cleared and refilled (each wrench into
      a fresh message); depths appended to those already there. */
  function ContactToIgn(src: Ros.Contact, dst: Ign.Contact): (r: Ign.Contact)
    ensures r.collision1 == EntityToIgn(src.collision1, dst.collision1)
    ensures r.collision2 == EntityToIgn(src.collision1, dst.collision2)
    ensures Map(Vector3ToRos, r.position) == src.positions
    ensures Map(Vector3ToRos, r.normal) == src.normals
    ensures r.depth == dst.depth + src.depths
    ensures |r.wrench| == |src.wrenches|
    ensures forall i :: 0 <= i < |r.wrench| ==> r.wrench[i].header.data == [Ign.Pair(FrameIdKey, [src.wrenches[i].header.frameId])]
    ensures forall i :: 0 <= i < |src.wrenches| ==> r.wrench[i] == JointWrenchToIgn(src.wrenches[i], Ign.DefaultJointWrench)
  {
    Ign.Contact(
      EntityToIgn(src.collision1, dst.collision1),
      EntityToIgn(src.collision1, dst.collision2),
      Map(Vector3ToIgn, src.positions),
      Map(Vector3ToIgn, src.normals),
      dst.depth + src.depths,
      Map((w: Ros.JointWrench) => JointWrenchToIgn(w, Ign.DefaultJointWrench), src.wrenches))
  }

  /** `convert_ign_to_ros(Contact)`: the two collisions converted into the
      destination's, and every list appended to, each wrench decoded into a
      fresh message. */
  function ContactToRos(src: Ign.Contact, dst: Ros.Contact, now: Ros.Time): (r: Ros.Contact)
    ensures r.collision1 == EntityToRos(src.collision1, dst.collision1)
    ensures r.collision2 == EntityToRos(src.collision2, dst.collision2)
    ensures |r.positions| == |dst.positions| + |src.position| && r.positions[..|dst.positions|] == dst.positions
    ensures Map(Vector3ToIgn, r.positions[|dst.positions|..]) == src.position
    ensures |r.normals| == |dst.normals| + |src.normal| && r.normals[..|dst.normals|] == dst.normals
    ensures Map(Vector3ToIgn, r.normals[|dst.normals|..]) == src.normal
    ensures r.depths == dst.depths + src.depth
    ensures |r.wrenches| == |dst.wrenches| + |src.wrench| && r.wrenches[..|dst.wrenches|] == dst.wrenches
    ensures forall i :: 0 <= i < |src.wrench| ==> r.wrenches[|dst.wrenches| + i] == JointWrenchToRos(src.wrench[i], Ros.DefaultJointWrench, now)
  {
    Ros.Contact(
      EntityToRos(src.collision1, dst.collision1),
      EntityToRos(src.collision2, dst.collision2),
      dst.positions + Map(Vector3ToRos, src.position),
      dst.normals + Map(Vector3ToRos, src.normal),
      dst.depths + src.depth,
      dst.wrenches + Map((w: Ign.JointWrench) => JointWrenchToRos(w, Ros.DefaultJointWrench, now), src.wrench))
  }

  /** A contact after a trip through fresh messages on both sides: the
      second collision is a copy of the first, entity types outside the
      table become NONE, and every wrench has a relayed header. */
  function RelayedContact(c: Ros.Contact, now: Ros.Time): Ros.Contact {
    c.(collision1 := RelayedEntity(c.collision1),
       collision2 := RelayedEntity(c.collision1),
       wrenches := Map((w: Ros.JointWrench) => w.(header := Relayed(w.header, now)), c.wrenches))
  }

  lemma ContactRoundTrip(c: Ros.Contact, now: Ros.Time)
    ensures ContactToRos(ContactToIgn(c, Ign.DefaultContact), Ros.DefaultContact, now) == RelayedContact(c, now)
  {
    var e := ContactToIgn(c, Ign.DefaultContact);
    var r := ContactToRos(e, Ros.DefaultContact, now);
    EntityRoundTrip(c.collision1, Ign.DefaultEntity, Ros.DefaultEntity);
    MapInverse(Vector3ToIgn, Vector3ToRos, c.positions);
    MapInverse(Vector3ToIgn, Vector3ToRos, c.normals);
    assert r.positions == Map(Vector3ToRos, e.position);
    assert r.normals == Map(Vector3ToRos, e.normal);
    var want := RelayedContact(c, now).wrenches;
    assert r.wrenches == Map((w: Ign.JointWrench) => JointWrenchToRos(w, Ros.DefaultJointWrench, now), e.wrench);
    forall i | 0 <= i < |c.wrenches|
      ensures r.wrenches[i] == want[i]
    {
      JointWrenchRoundTrip(c.wrenches[i], Ign.DefaultJointWrench, Ros.DefaultJointWrench, now);
    }
  }

  /** Whatever `collision2` held, it does not reach Ignition: two contacts
      that differ only there encode identically. */
  lemma Collision2Lost(c: Ros.Contact, other: Ros.Entity, dst: Ign.Contact)
    ensures ContactToIgn(c.(collision2 := other), dst) == ContactToIgn(c, dst)
  {
  }

  /** Encoding a contact into a message that already holds one replaces its
      positions but accumulates its depths. */
  lemma DepthsAccumulate(c: Ros.Contact, dst: Ign.Contact)
    ensures ContactToIgn(c, ContactToIgn(c, dst)).position == ContactToIgn(c, dst).position
    ensures ContactToIgn(c, ContactToIgn(c, dst)).depth == dst.depth + c.depths + c.depths
  {
  }

  /** `convert_ros_to_ign(Contacts)`: header, then the contact list cleared
      and refilled, each contact into a fresh message. */
  function ContactsToIgn(src: Ros.Contacts, dst: Ign.Contacts): (r: Ign.Contacts)
    ensures r.header == HeaderToIgn(src.header, dst.header)
    ensures |r.contact| == |src.contacts|
    ensures forall i :: 0 <= i < |src.contacts| ==> r.contact[i] == ContactToIgn(src.contacts[i], Ign.DefaultContact)
  {
    Ign.Contacts(
      HeaderToIgn(src.header, dst.header),
      Map((c: Ros.Contact) => ContactToIgn(c, Ign.DefaultContact), src.contacts))
  }

  /** `convert_ign_to_ros(Contacts)`: header, then the decoded contacts
      appended to the destination's list. */
  function ContactsToRos(src: Ign.Contacts, dst: Ros.Contacts, now: Ros.Time): (r: Ros.Contacts)
    ensures r.header == HeaderToRos(src.header, dst.header, now)
    ensures |r.contacts| == |dst.contacts| + |src.contact| && r.contacts[..|dst.contacts|] == dst.contacts
    ensures forall i :: 0 <= i < |src.contact| ==> r.contacts[|dst.contacts| + i] == ContactToRos(src.contact[i], Ros.DefaultContact, now)
  {
    Ros.Contacts(
      HeaderToRos(src.header, dst.header, now),
      dst.contacts + Map((c: Ign.Contact) => ContactToRos(c, Ros.DefaultContact, now), src.contact))
  }

  /** A contact list sent to Ignition and decoded into a message with no
      contacts yet comes back contact by contact as `RelayedContact`. */
  lemma ContactsRoundTrip(m: Ros.Contacts, dst: Ign.Contacts, dst': Ros.Contacts, now: Ros.Time)
    requires dst'.contacts == []
    ensures ContactsToRos(ContactsToIgn(m, dst), dst', now)
         == Ros.Contacts(Relayed(m.header, now), Map((c: Ros.Contact) => RelayedContact(c, now), m.contacts))
  {
    HeaderRoundTrip(m.header, dst.header, dst'.header, now);
    var r := ContactsToRos(ContactsToIgn(m, dst), dst', now);
    forall i | 0 <= i < |m.contacts|
      ensures r.contacts[i] == RelayedContact(m.contacts[i], now)
    {
      ContactRoundTrip(m.contacts[i], now);
    }
  }
}

=== FILE: point_cloud.dfy ===
/** Point-cloud converters.  The byte buffer is copied whole, the scalar
    layout fields one by one, and the field descriptions are appended to
    the destination's list in both directions, their datatype going
    through the point-field table (anything unlisted becomes INT8).
 */
module PointCloud {
  import opened Base
  import opened Headers
  import opened EnumTables
  import Ros = RosMsgs
  import Ign = IgnMsgs

  function FieldToIgn(f: Ros.PointField): (r: Ign.Field)
    ensures r.name == f.name && r.offset == f.offset && r.count == f.count
    ensures !f.pointType.PointDatatypeOther? ==> PointDatatypeToRos(r.pointType) == f.pointType
  {
    PointDatatypeRoundTrip(f.pointType, Ign.INT8);
    Ign.Field(f.name, f.offset, PointDatatypeToIgn(f.pointType), f.count)
  }

  function FieldToRos(f: Ign.Field): (r: Ros.PointField)
    ensures r.name == f.name && r.offset == f.offset && r.count == f.count
    ensures !f.pointType.PointDatatypeOther? ==> PointDatatypeToIgn(r.pointType) == f.pointType
  {
    PointDatatypeRoundTrip(Ros.INT8, f.pointType);
    Ros.PointField(f.name, f.offset, PointDatatypeToRos(f.pointType), f.count)
  }

  /** A field description after a round trip: an unlisted datatype
      becomes INT8. */
  function RelayedField(f: Ros.PointField): Ros.PointField {
    if f.pointType.PointDatatypeOther? then f.(pointType := Ros.INT8) else f
  }

  /** `convert_ros_to_ign(PointCloud2)`. */
  function PointCloud2ToIgn(src: Ros.PointCloud2, dst: Ign.PointCloudPacked): (r: Ign.PointCloudPacked)
    ensures r.header == HeaderToIgn(src.header, dst.header)
    ensures r.height == src.height && r.width == src.width && r.isBigendian == src.isBigendian
    ensures r.pointStep == src.pointStep && r.rowStep == src.rowStep && r.isDense == src.isDense
    ensures r.data == src.data
    ensures |r.field| == |dst.field| + |src.fields| && r.field[..|dst.field|] == dst.field
    ensures forall i :: 0 <= i < |src.fields| ==> FieldToRos(r.field[|dst.field| + i]) == RelayedField(src.fields[i])
  {
    Ign.PointCloudPacked(
      HeaderToIgn(src.header, dst.header),
      dst.field + Map(FieldToIgn, src.fields),
      src.height, src.width, src.isBigendian, src.pointStep, src.rowStep,
      src.data,
      src.isDense)
  }

  /** `convert_ign_to_ros(PointCloud2)`. */
  function PointCloud2ToRos(src: Ign.PointCloudPacked, dst: Ros.PointCloud2, now: Ros.Time): (r: Ros.PointCloud2)
    ensures r.header == HeaderToRos(src.header, dst.header, now)
    ensures r.height == src.height && r.width == src.width && r.isBigendian == src.isBigendian
    ensures r.pointStep == src.pointStep && r.rowStep == src.rowStep && r.isDense == src.isDense
    ensures r.data == src.data
    ensures |r.fields| == |dst.fields| + |src.field| && r.fields[..|dst.fields|] == dst.fields
    ensures forall i :: 0 <= i < |src.field| ==> r.fields[|dst.fields| + i] == FieldToRos(src.field[i])
  {
    Ros.PointCloud2(
      HeaderToRos(src.header, dst.header, now),
      src.height, src.width,
      dst.fields + Map(FieldToRos, src.field),
      src.isBigendian, src.pointStep, src.rowStep,
      src.data,
      src.isDense)
  }

  /** Between messages with no fields yet, a cloud comes back with its bytes
      and layout intact, its header relayed and every field relayed. */
  lemma PointCloud2RoundTrip(c: Ros.PointCloud2, dst: Ign.PointCloudPacked, dst': Ros.PointCloud2, now: Ros.Time)
    requires dst.field == [] && dst'.fields == []
    ensures PointCloud2ToRos(PointCloud2ToIgn(c, dst), dst', now)
         == c.(header := Relayed(c.header, now), fields := Map(RelayedField, c.fields))
  {
    HeaderRoundTrip(c.header, dst.header, dst'.header, now);
    var r := PointCloud2ToRos(PointCloud2ToIgn(c, dst), dst', now);
    assert r.fields == Map(FieldToRos, Map(FieldToIgn, c.fields));
  }

  /** So a cloud whose fields all have listed datatypes survives up to its
      header. */
  lemma ListedPointCloud2RoundTrip(c: Ros.PointCloud2, dst: Ign.PointCloudPacked, dst': Ros.PointCloud2, now: Ros.Time)
    requires dst.field == [] && dst'.fields == []
    requires forall i :: 0 <= i < |c.fields| ==> !c.fields[i].pointType.PointDatatypeOther?
    ensures PointCloud2ToRos(PointCloud2ToIgn(c, dst), dst', now) == c.(header := Relayed(c.header, now))
  {
    PointCloud2RoundTrip(c, dst, dst', now);
    assert Map(RelayedField, c.fields) == c.fields;
  }

  /** Converting the same cloud twice into one Ignition message lists its
      fields twice. */
  lemma FieldsAccumulate(c: Ros.PointCloud2, dst: Ign.PointCloudPacked)
    ensures |PointCloud2ToIgn(c, PointCloud2ToIgn(c, dst)).field| == |dst.field| + 2 * |c.fields|
    ensures PointCloud2ToIgn(c, PointCloud2ToIgn(c, dst)).data == c.data
  {
  }
}

=== FILE: ros_msgs.dfy ===
/** The ROS 2 side of the bridge: the message types the converters read and
    write, restricted to the fields some converter touches.  Enumerated
    `uint8` fields are datatypes whose variants carry the constant names of
    the message definitions, plus one variant for any other value.
 */
module RosMsgs {
  import opened Base

  // builtin_interfaces

  datatype Time = Time(sec: int32, nanosec: uint32)
  datatype Duration = Duration(sec: int32, nanosec: uint32)

  // std_msgs and rosgraph_msgs

  datatype Header = Header(stamp: Time, frameId: string)

  datatype Bool = Bool(data: bool)
  datatype UInt32 = UInt32(data: uint32)
  datatype Int32 = Int32(data: int32)
  datatype Float32 = Float32(data: float32)
  datatype Float64 = Float64(data: float64)
  datatype String = String(data: string)
  datatype Clock = Clock(clock: Time)

  // geometry_msgs and tf2_msgs

  datatype Vector3 = Vector3(x: float64, y: float64, z: float64)
  datatype Point = Point(x: float64, y: float64, z: float64)
  datatype Quaternion = Quaternion(x: float64, y: float64, z: float64, w: float64)
  datatype Pose = Pose(position: Point, orientation: Quaternion)
  datatype PoseStamped = PoseStamped(header: Header, pose: Pose)
  datatype Transform = Transform(translation: Vector3, rotation: Quaternion)
  datatype TransformStamped = TransformStamped(header: Header, childFrameId: string, transform: Transform)
  datatype TFMessage = TFMessage(transforms: seq<TransformStamped>)
  datatype Twist = Twist(linear: Vector3, angular: Vector3)
  datatype Wrench = Wrench(force: Vector3, torque: Vector3)

  // ros_ign_interfaces

  datatype JointWrench = JointWrench(
    header: Header,
    body1Name: String,
    body2Name: String,
    body1Id: UInt32,
    body2Id: UInt32,
    body1Wrench: Wrench,
    body2Wrench: Wrench)

  /** `Entity.type`: the eight named constants (codes 0 to 7), or any other
      uint8. */
  datatype EntityType =
    | NONE | LIGHT | MODEL | LINK | VISUAL | COLLISION | SENSOR | JOINT
    | EntityTypeOther(code: UnlistedEntityCode)

  type UnlistedEntityCode = c: uint8 | 8 <= c witness 8

  datatype Entity = Entity(id: uint64, name: string, entityType: EntityType)

  datatype Contact = Contact(
    collision1: Entity,
    collision2: Entity,
    positions: seq<Vector3>,
    normals: seq<Vector3>,
    depths: seq<float64>,
    wrenches: seq<JointWrench>)

  datatype Contacts = Contacts(header: Header, contacts: seq<Contact>)

  // nav_msgs and sensor_msgs

  /** `pose` and `twist` stand for `pose.pose` and `twist.twist`; the
      covariances are not touched by either converter. */
  datatype Odometry = Odometry(header: Header, childFrameId: string, pose: Pose, twist: Twist)

  datatype FluidPressure = FluidPressure(header: Header, fluidPressure: float64, variance: float64)

  datatype Image = Image(
    header: Header,
    height: uint32,
    width: uint32,
    encoding: string,
    isBigendian: uint8,
    step: uint32,
    data: seq<uint8>)

  /** `k`, `r` and `p` are fixed-size arrays of 9, 9 and 12 doubles. */
  datatype CameraInfo = CameraInfo(
    header: Header,
    height: uint32,
    width: uint32,
    distortionModel: string,
    d: seq<float64>,
    k: seq<float64>,
    r: seq<float64>,
    p: seq<float64>)

  predicate WellSizedCameraInfo(c: CameraInfo) {
    |c.k| == 9 && |c.r| == 9 && |c.p| == 12
  }

  datatype Imu = Imu(header: Header, orientation: Quaternion, angularVelocity: Vector3, linearAcceleration: Vector3)

  datatype MagneticField = MagneticField(header: Header, magneticField: Vector3)

  datatype JointState = JointState(
    header: Header,
    name: seq<string>,
    position: seq<float64>,
    velocity: seq<float64>,
    effort: seq<float64>)

  datatype LaserScan = LaserScan(
    header: Header,
    angleMin: float32,
    angleMax: float32,
    angleIncrement: float32,
    timeIncrement: float32,
    scanTime: float32,
    rangeMin: float32,
    rangeMax: float32,
    ranges: seq<float32>,
    intensities: seq<float32>)

  /** `PointField.datatype`: the eight named constants (codes 1 to 8), or
      any other uint8. */
  datatype PointDatatype =
    | INT8 | UINT8 | INT16 | UINT16 | INT32 | UINT32 | FLOAT32 | FLOAT64
    | PointDatatypeOther(code: UnlistedPointDatatypeCode)

  type UnlistedPointDatatypeCode = c: uint8 | c == 0 || 9 <= c witness 0

  datatype PointField = PointField(name: string, offset: uint32, pointType: PointDatatype, count: uint32)

  datatype PointCloud2 = PointCloud2(
    header: Header,
    height: uint32,
    width: uint32,
    fields: seq<PointField>,
    isBigendian: bool,
    pointStep: uint32,
    rowStep: uint32,
    data: seq<uint8>,
    isDense: bool)

  /** `BatteryState.power_supply_status`: the five named constants, or any other uint8. */
  datatype PowerSupplyStatus =
    | POWER_SUPPLY_STATUS_UNKNOWN
    | POWER_SUPPLY_STATUS_CHARGING
    | POWER_SUPPLY_STATUS_DISCHARGING
    | POWER_SUPPLY_STATUS_NOT_CHARGING
    | POWER_SUPPLY_STATUS_FULL
    | PowerSupplyStatusOther(code: UnlistedPowerSupplyStatusCode)

  /** The five named statuses have codes 0 to 4. */
  type UnlistedPowerSupplyStatusCode = c: uint8 | 5 <= c witness 5

  /** The value of both `POWER_SUPPLY_HEALTH_UNKNOWN` and
      `POWER_SUPPLY_TECHNOLOGY_UNKNOWN` in the message definition. */
  const PowerSupplyUnknownCode: uint8 := 0

  datatype BatteryState = BatteryState(
    header: Header,
    voltage: float32,
    current: float32,
    charge: float32,
    capacity: float32,
    percentage: float32,
    powerSupplyStatus: PowerSupplyStatus,
    powerSupplyHealth: uint8,
    powerSupplyTechnology: uint8,
    present: bool)

  // trajectory_msgs

  datatype JointTrajectoryPoint = JointTrajectoryPoint(
    positions: seq<float64>,
    velocities: seq<float64>,
    accelerations: seq<float64>,
    effort: seq<float64>,
    timeFromStart: Duration)

  datatype JointTrajectory = JointTrajectory(header: Header, jointNames: seq<string>, points: seq<JointTrajectoryPoint>)

  // Default-constructed messages, as the converters create them for list elements.

  const EmptyHeader := Header(Time(0, 0), "")
  const ZeroVector3 := Vector3(Zero64, Zero64, Zero64)
  const ZeroWrench := Wrench(ZeroVector3, ZeroVector3)
  /** geometry_msgs/Quaternion defaults to the identity rotation, w = 1.0. */
  const IdentityQuaternion := Quaternion(Zero64, Zero64, Zero64, 0x3FF0_0000_0000_0000)
  const DefaultTransformStamped := TransformStamped(EmptyHeader, "", Transform(ZeroVector3, IdentityQuaternion))
  const DefaultJointWrench :=
    JointWrench(EmptyHeader, String(""), String(""), UInt32(0), UInt32(0), ZeroWrench, ZeroWrench)
  const DefaultEntity := Entity(0, "", NONE)
  const DefaultContact := Contact(DefaultEntity, DefaultEntity, [], [], [], [])
  const DefaultJointTrajectoryPoint := JointTrajectoryPoint([], [], [], [], Duration(0, 0))
}

=== FILE: scalars.dfy ===
/** Converters for the single-value wrapper messages: each copies its one
    field, so each pair of converters is a bijection. */
module Scalars {
  import opened Base
  import Headers
  import Ros = RosMsgs
  import Ign = IgnMsgs

  function BoolToIgn(src: Ros.Bool): (r: Ign.Boolean)
    ensures BoolToRos(r) == src
  {
    Ign.Boolean(src.data)
  }

  function BoolToRos(src: Ign.Boolean): (r: Ros.Bool)
    ensures r.data == src.data
  {
    Ros.Bool(src.data)
  }

  function UInt32ToIgn(src: Ros.UInt32): (r: Ign.UInt32)
    ensures UInt32ToRos(r) == src
  {
    Ign.UInt32(src.data)
  }

  function UInt32ToRos(src: Ign.UInt32): (r: Ros.UInt32)
    ensures r.data == src.data
  {
    Ros.UInt32(src.data)
  }

  function Int32ToIgn(src: Ros.Int32): (r: Ign.Int32)
    ensures Int32ToRos(r) == src
  {
    Ign.Int32(src.data)
  }

  function Int32ToRos(src: Ign.Int32): (r: Ros.Int32)
    ensures r.data == src.data
  {
    Ros.Int32(src.data)
  }

  function Float32ToIgn(src: Ros.Float32): (r: Ign.Float)
    ensures Float32ToRos(r) == src
  {
    Ign.Float(src.data)
  }

  function Float32ToRos(src: Ign.Float): (r: Ros.Float32)
    ensures r.data == src.data
  {
    Ros.Float32(src.data)
  }

  function Float64ToIgn(src: Ros.Float64): (r: Ign.Double)
    ensures Float64ToRos(r) == src
  {
    Ign.Double(src.data)
  }

  function Float64ToRos(src: Ign.Double): (r: Ros.Float64)
    ensures r.data == src.data
  {
    Ros.Float64(src.data)
  }

  function StringToIgn(src: Ros.String): (r: Ign.StringMsg)
    ensures StringToRos(r) == src
  {
    Ign.StringMsg(src.data)
  }

  function StringToRos(src: Ign.StringMsg): (r: Ros.String)
    ensures r.data == src.data
  {
    Ros.String(src.data)
  }

  /** Each wrapper converter is undone by its partner, in both directions. */
  lemma ScalarRoundTrips(
    b: Ros.Bool, b': Ign.Boolean,
    u: Ros.UInt32, u': Ign.UInt32,
    i: Ros.Int32, i': Ign.Int32,
    f: Ros.Float32, f': Ign.Float,
    d: Ros.Float64, d': Ign.Double,
    s: Ros.String, s': Ign.StringMsg)
    ensures BoolToRos(BoolToIgn(b)) == b && BoolToIgn(BoolToRos(b')) == b'
    ensures UInt32ToRos(UInt32ToIgn(u)) == u && UInt32ToIgn(UInt32ToRos(u')) == u'
    ensures Int32ToRos(Int32ToIgn(i)) == i && Int32ToIgn(Int32ToRos(i')) == i'
    ensures Float32ToRos(Float32ToIgn(f)) == f && Float32ToIgn(Float32ToRos(f')) == f'
    ensures Float64ToRos(Float64ToIgn(d)) == d && Float64ToIgn(Float64ToRos(d')) == d'
    ensures StringToRos(StringToIgn(s)) == s && StringToIgn(StringToRos(s')) == s'
  {
  }

  /** `convert_ros_to_ign(Clock)`: the simulation time takes the clock's
      seconds and nanoseconds, with the header's stamp conversion. */
  function ClockToIgn(src: Ros.Clock): (r: Ign.Clock)
    ensures r.sim.sec == src.clock.sec
    ensures src.clock.nanosec < 1_000_000_000 ==> r.sim.nsec == src.clock.nanosec
  {
    Ign.Clock(Headers.StampToIgn(src.clock))
  }

  /** The ROS client library's Time constructor, given non-negative
      seconds and nanoseconds below one second, builds exactly that time.
      (Its behaviour on larger nanoseconds is not part of this model.) */
  ghost predicate RestoresTime(time: (int32, uint32) -> Ros.Time) {
    forall sec: int32, nanosec: uint32 :: 0 <= sec && nanosec < 1_000_000_000 ==> time(sec, nanosec) == Ros.Time(sec, nanosec)
  }

  /** `convert_ign_to_ros(Clock)`: the clock is built by the client
      library's Time constructor, the parameter `time`, from the simulation
      seconds cut to int32 and the nanoseconds read as uint32.  The
      constructor throws on negative seconds; the model returns `None`. */
  function ClockToRos(src: Ign.Clock, time: (int32, uint32) -> Ros.Time): (r: Option<Ros.Clock>)
    ensures r.None? <==> I64ToI32(src.sim.sec) < 0
    ensures r.Some? ==> r.value.clock == time(I64ToI32(src.sim.sec), I32ToU32(src.sim.nsec))
    ensures -0x8000_0000 <= src.sim.sec < 0 ==> r.None?
    ensures 0x8000_0000 <= src.sim.sec < 0x1_0000_0000 ==> r.None?
    ensures 0 <= src.sim.sec < 0x8000_0000 && 0 <= src.sim.nsec ==>
              r == Some(Ros.Clock(time(src.sim.sec, src.sim.nsec)))
  {
    var seconds := I64ToI32(src.sim.sec);
    if seconds < 0 then None else Some(Ros.Clock(time(seconds, I32ToU32(src.sim.nsec))))
  }

  /** A clock with non-negative seconds and normalised nanoseconds survives
      the round trip. */
  lemma ClockRoundTrip(c: Ros.Clock, time: (int32, uint32) -> Ros.Time)
    requires RestoresTime(time)
    requires 0 <= c.clock.sec && c.clock.nanosec < 1_000_000_000
    ensures ClockToRos(ClockToIgn(c), time) == Some(c)
  {
  }

  /** Only the low 32 bits of the seconds reach the constructor: a
      simulation time 2^32 - 5 seconds before the epoch decodes as 5
      seconds after it, and a negative nsec arrives as nsec + 2^32. */
  lemma FarNegativeDoesNotThrow(time: (int32, uint32) -> Ros.Time)
    ensures ClockToRos(Ign.Clock(Ign.Time(-0x1_0000_0000 + 5, -1)), time)
         == Some(Ros.Clock(time(5, 0xFFFF_FFFF)))
  {
  }

  /** A clock before the epoch does not come back: decoding it throws. */
  lemma NegativeClockThrows(c: Ros.Clock, time: (int32, uint32) -> Ros.Time)
    requires c.clock.sec < 0
    ensures ClockToRos(ClockToIgn(c), time).None?
  {
  }
}

=== FILE: sensors.dfy ===
/** Converters for odometry and the simple sensor messages: fluid pressure,
    IMU, magnetometer, joint states and battery state.

    The float32/float64 casts of the battery converters are the parameters
    `widen` and `narrow`; the round trip assumes only that narrowing a
    widened value gives it back quieted, as IEEE-754 casts do: a signalling
    NaN returns as the quiet NaN with the same payload.
 */
module Sensors {
  import opened Base
  import opened Headers
  import opened EnumTables
  import opened Geometry
  import Delimiter
  import Ros = RosMsgs
  import Ign = IgnMsgs

  // Odometry

  /** `convert_ros_to_ign(Odometry)`: header, pose into the destination's
      pose (whose own header stays), twist, and then a `child_frame_id` pair
      after the header's `frame_id` pair. */
  function OdometryToIgn(src: Ros.Odometry, dst: Ign.Odometry): (r: Ign.Odometry)
    ensures r.header == StampedHeaderToIgn(src.header, src.childFrameId, dst.header)
    ensures r.pose.header == dst.pose.header && PoseToRos(r.pose) == src.pose
    ensures TwistToRos(r.twist) == src.twist
  {
    var withHeader := HeaderToIgn(src.header, dst.header);
    Ign.Odometry(
      AppendPair(withHeader, ChildFrameIdKey, src.childFrameId),
      PoseToIgn(src.pose, dst.pose),
      TwistToIgn(src.twist))
  }

  /** `convert_ign_to_ros(Odometry)`: header, pose, twist, and the first
      accepted `child_frame_id`, else the destination's own. */
  function OdometryToRos(src: Ign.Odometry, dst: Ros.Odometry, now: Ros.Time): (r: Ros.Odometry)
    ensures r.header == HeaderToRos(src.header, dst.header, now)
    ensures r.childFrameId == ChildFrameIdToRos(src.header, dst.childFrameId)
    ensures PoseToIgn(r.pose, src.pose) == src.pose
    ensures TwistToIgn(r.twist) == src.twist
  {
    Ros.Odometry(
      HeaderToRos(src.header, dst.header, now),
      ChildFrameIdToRos(src.header, dst.childFrameId),
      PoseToRos(src.pose),
      TwistToRos(src.twist))
  }

  /** Odometry survives the round trip up to its relayed frame names,
      provided the destination header held no `child_frame_id` pair. */
  lemma OdometryRoundTrip(o: Ros.Odometry, dst: Ign.Odometry, dst': Ros.Odometry, now: Ros.Time)
    requires NoneCarries(dst.header.data, ChildFrameIdKey, 0)
    ensures OdometryToRos(OdometryToIgn(o, dst), dst', now)
         == o.(header := Relayed(o.header, now), childFrameId := Delimiter.FrameIdIgnToRos(o.childFrameId))
  {
    StampedHeaderRoundTrip(o.header, o.childFrameId, dst.header, dst'.header, dst'.childFrameId, now);
  }

  // Fluid pressure

  function FluidPressureToIgn(src: Ros.FluidPressure, dst: Ign.FluidPressure): (r: Ign.FluidPressure)
    ensures r.header == HeaderToIgn(src.header, dst.header)
    ensures r.pressure == src.fluidPressure && r.variance == src.variance
  {
    Ign.FluidPressure(HeaderToIgn(src.header, dst.header), src.fluidPressure, src.variance)
  }

  function FluidPressureToRos(src: Ign.FluidPressure, dst: Ros.FluidPressure, now: Ros.Time): (r: Ros.FluidPressure)
    ensures r.header == HeaderToRos(src.header, dst.header, now)
    ensures r.fluidPressure == src.pressure && r.variance == src.variance
  {
    Ros.FluidPressure(HeaderToRos(src.header, dst.header, now), src.pressure, src.variance)
  }

  lemma FluidPressureRoundTrip(f: Ros.FluidPressure, dst: Ign.FluidPressure, dst': Ros.FluidPressure, now: Ros.Time)
    ensures FluidPressureToRos(FluidPressureToIgn(f, dst), dst', now) == f.(header := Relayed(f.header, now))
  {
    HeaderRoundTrip(f.header, dst.header, dst'.header, now);
  }

  // IMU

  /** `convert_ros_to_ign(Imu)`: header, the untranslated frame id as entity
      name, then orientation, angular velocity and linear acceleration. */
  function ImuToIgn(src: Ros.Imu, dst: Ign.IMU): (r: Ign.IMU)
    ensures r.header == HeaderToIgn(src.header, dst.header)
    ensures r.entityName == src.header.frameId
    ensures QuaternionToRos(r.orientation) == src.orientation
    ensures Vector3ToRos(r.angularVelocity) == src.angularVelocity
    ensures Vector3ToRos(r.linearAcceleration) == src.linearAcceleration
  {
    Ign.IMU(
      HeaderToIgn(src.header, dst.header),
      src.header.frameId,
      QuaternionToIgn(src.orientation),
      Vector3ToIgn(src.angularVelocity),
      Vector3ToIgn(src.linearAcceleration))
  }

  /** `convert_ign_to_ros(Imu)`: the entity name is not read. */
  function ImuToRos(src: Ign.IMU, dst: Ros.Imu, now: Ros.Time): (r: Ros.Imu)
    ensures r.header == HeaderToRos(src.header, dst.header, now)
    ensures QuaternionToIgn(r.orientation) == src.orientation
    ensures Vector3ToIgn(r.angularVelocity) == src.angularVelocity
    ensures Vector3ToIgn(r.linearAcceleration) == src.linearAcceleration
  {
    Ros.Imu(
      HeaderToRos(src.header, dst.header, now),
      QuaternionToRos(src.orientation),
      Vector3ToRos(src.angularVelocity),
      Vector3ToRos(src.linearAcceleration))
  }

  lemma ImuRoundTrip(m: Ros.Imu, dst: Ign.IMU, dst': Ros.Imu, now: Ros.Time)
    ensures ImuToRos(ImuToIgn(m, dst), dst', now) == m.(header := Relayed(m.header, now))
  {
    HeaderRoundTrip(m.header, dst.header, dst'.header, now);
  }

  // Magnetometer

  function MagneticFieldToIgn(src: Ros.MagneticField, dst: Ign.Magnetometer): (r: Ign.Magnetometer)
    ensures r.header == HeaderToIgn(src.header, dst.header)
    ensures Vector3ToRos(r.fieldTesla) == src.magneticField
  {
    Ign.Magnetometer(HeaderToIgn(src.header, dst.header), Vector3ToIgn(src.magneticField))
  }

  function MagneticFieldToRos(src: Ign.Magnetometer, dst: Ros.MagneticField, now: Ros.Time): (r: Ros.MagneticField)
    ensures r.header == HeaderToRos(src.header, dst.header, now)
    ensures Vector3ToIgn(r.magneticField) == src.fieldTesla
  {
    Ros.MagneticField(HeaderToRos(src.header, dst.header, now), Vector3ToRos(src.fieldTesla))
  }

  lemma MagneticFieldRoundTrip(m: Ros.MagneticField, dst: Ign.Magnetometer, dst': Ros.MagneticField, now: Ros.Time)
    ensures MagneticFieldToRos(MagneticFieldToIgn(m, dst), dst', now) == m.(header := Relayed(m.header, now))
  {
    HeaderRoundTrip(m.header, dst.header, dst'.header, now);
  }

  // Joint state

  /** `convert_ros_to_ign(JointState)`: one joint per POSITION entry is
      appended to the model, its name, velocity and effort read at the same
      index; the source indexes those lists without a check, so they must be
      at least as long. */
  function JointStateToIgn(src: Ros.JointState, dst: Ign.Model): (r: Ign.Model)
    requires |src.position| <= |src.name| && |src.position| <= |src.velocity| && |src.position| <= |src.effort|
    ensures r.header == HeaderToIgn(src.header, dst.header)
    ensures |r.joint| == |dst.joint| + |src.position| && r.joint[..|dst.joint|] == dst.joint
    ensures forall i :: 0 <= i < |src.position| ==>
              var j := r.joint[|dst.joint| + i];
              j.name == src.name[i] && j.axis1.position == src.position[i]
              && j.axis1.velocity == src.velocity[i] && j.axis1.force == src.effort[i]
  {
    Ign.Model(
      HeaderToIgn(src.header, dst.header),
      dst.joint + seq(|src.position|, i requires 0 <= i < |src.position| =>
        Ign.Joint(src.name[i], Ign.Axis(src.position[i], src.velocity[i], src.effort[i]))))
  }

  /** `convert_ign_to_ros(JointState)`: every joint pushes its name,
      position, velocity and force onto the four lists. */
  function JointStateToRos(src: Ign.Model, dst: Ros.JointState, now: Ros.Time): (r: Ros.JointState)
    ensures r.header == HeaderToRos(src.header, dst.header, now)
    ensures |r.name| == |dst.name| + |src.joint| && r.name[..|dst.name|] == dst.name
    ensures |r.position| == |dst.position| + |src.joint| && r.position[..|dst.position|] == dst.position
    ensures |r.velocity| == |dst.velocity| + |src.joint| && r.velocity[..|dst.velocity|] == dst.velocity
    ensures |r.effort| == |dst.effort| + |src.joint| && r.effort[..|dst.effort|] == dst.effort
    ensures forall i :: 0 <= i < |src.joint| ==>
              r.name[|dst.name| + i] == src.joint[i].name
              && r.position[|dst.position| + i] == src.joint[i].axis1.position
              && r.velocity[|dst.velocity| + i] == src.joint[i].axis1.velocity
              && r.effort[|dst.effort| + i] == src.joint[i].axis1.force
  {
    Ros.JointState(
      HeaderToRos(src.header, dst.header, now),
      dst.name + Map((j: Ign.Joint) => j.name, src.joint),
      dst.position + Map((j: Ign.Joint) => j.axis1.position, src.joint),
      dst.velocity + Map((j: Ign.Joint) => j.axis1.velocity, src.joint),
      dst.effort + Map((j: Ign.Joint) => j.axis1.force, src.joint))
  }

  /** Through an empty model and back into empty lists, a joint state keeps
      its first |position| entries of every list: names, velocities and
      efforts beyond the positions are dropped. */
  lemma JointStateRoundTrip(js: Ros.JointState, dst: Ign.Model, dst': Ros.JointState, now: Ros.Time)
    requires |js.position| <= |js.name| && |js.position| <= |js.velocity| && |js.position| <= |js.effort|
    requires dst.joint == [] && dst'.name == [] && dst'.position == [] && dst'.velocity == [] && dst'.effort == []
    ensures var n := |js.position|;
      JointStateToRos(JointStateToIgn(js, dst), dst', now)
      == Ros.JointState(Relayed(js.header, now), js.name[..n], js.position, js.velocity[..n], js.effort[..n])
  {
    HeaderRoundTrip(js.header, dst.header, dst'.header, now);
  }

  // Battery state

  /** `convert_ros_to_ign(BatteryState)`: the five readings widened, the
      status through the status table (unchanged when unlisted). */
  function BatteryStateToIgn(src: Ros.BatteryState, dst: Ign.BatteryState, widen: float32 -> float64): (r: Ign.BatteryState)
    ensures r.header == HeaderToIgn(src.header, dst.header)
    ensures r.voltage == widen(src.voltage) && r.current == widen(src.current) && r.charge == widen(src.charge)
    ensures r.capacity == widen(src.capacity) && r.percentage == widen(src.percentage)
    ensures !src.powerSupplyStatus.PowerSupplyStatusOther? ==>
              PowerSupplyStatusToRos(r.powerSupplyStatus, Ros.POWER_SUPPLY_STATUS_UNKNOWN) == src.powerSupplyStatus
    ensures src.powerSupplyStatus.PowerSupplyStatusOther? ==> r.powerSupplyStatus == dst.powerSupplyStatus
  {
    PowerSupplyStatusRoundTrip(src.powerSupplyStatus, Ign.UNKNOWN, dst.powerSupplyStatus, Ros.POWER_SUPPLY_STATUS_UNKNOWN);
    Ign.BatteryState(
      HeaderToIgn(src.header, dst.header),
      widen(src.voltage), widen(src.current), widen(src.charge), widen(src.capacity), widen(src.percentage),
      PowerSupplyStatusToIgn(src.powerSupplyStatus, dst.powerSupplyStatus))
  }

  /** `convert_ign_to_ros(BatteryState)`: the readings narrowed, the status
      through the table, and health and technology set to UNKNOWN with
      `present` set, whatever the destination held. */
  function BatteryStateToRos(src: Ign.BatteryState, dst: Ros.BatteryState, now: Ros.Time, narrow: float64 -> float32): (r: Ros.BatteryState)
    ensures r.header == HeaderToRos(src.header, dst.header, now)
    ensures r.voltage == narrow(src.voltage) && r.current == narrow(src.current) && r.charge == narrow(src.charge)
    ensures r.capacity == narrow(src.capacity) && r.percentage == narrow(src.percentage)
    ensures src.powerSupplyStatus.PowerSupplyStatusOther? ==> r.powerSupplyStatus == dst.powerSupplyStatus
    ensures r.powerSupplyHealth == Ros.PowerSupplyUnknownCode && r.powerSupplyTechnology == Ros.PowerSupplyUnknownCode
    ensures r.present
  {
    Ros.BatteryState(
      HeaderToRos(src.header, dst.header, now),
      narrow(src.voltage), narrow(src.current), narrow(src.charge), narrow(src.capacity), narrow(src.percentage),
      PowerSupplyStatusToRos(src.powerSupplyStatus, dst.powerSupplyStatus),
      Ros.PowerSupplyUnknownCode, Ros.PowerSupplyUnknownCode, true)
  }

  /** A battery state with a listed status survives the round trip, except
      that health and technology come back UNKNOWN, `present` set, and a
      signalling-NaN reading quieted. */
  lemma BatteryStateRoundTrip(
    b: Ros.BatteryState, dst: Ign.BatteryState, dst': Ros.BatteryState, now: Ros.Time,
    widen: float32 -> float64, narrow: float64 -> float32)
    requires NarrowAfterWiden(widen, narrow)
    requires !b.powerSupplyStatus.PowerSupplyStatusOther?
    ensures BatteryStateToRos(BatteryStateToIgn(b, dst, widen), dst', now, narrow)
         == b.(header := Relayed(b.header, now),
               voltage := Quieted(b.voltage), current := Quieted(b.current), charge := Quieted(b.charge),
               capacity := Quieted(b.capacity), percentage := Quieted(b.percentage),
               powerSupplyHealth := Ros.PowerSupplyUnknownCode,
               powerSupplyTechnology := Ros.PowerSupplyUnknownCode,
               present := true)
  {
    HeaderRoundTrip(b.header, dst.header, dst'.header, now);
    PowerSupplyStatusRoundTrip(b.powerSupplyStatus, Ign.UNKNOWN, dst.powerSupplyStatus, dst'.powerSupplyStatus);
  }
}

=== FILE: trajectory.dfy ===
/** Joint-trajectory converters.  Every list is APPENDED to in both
    directions, each trajectory point into a fresh message.  The decoded
    `time_from_start` is built by the ROS client library's Duration type
    from the Ignition seconds and nanoseconds; that constructor is the
    parameter `duration`.
 */
module Trajectory {
  import opened Base
  import opened Headers
  import Ros = RosMsgs
  import Ign = IgnMsgs

  /** The encoded time of a point: seconds widened, the uint32 nanoseconds
      stored in the int32 `nsec` field. */
  function DurationToIgn(d: Ros.Duration): (r: Ign.Duration)
    ensures r.sec == d.sec
    ensures d.nanosec < 1_000_000_000 ==> r.nsec == d.nanosec
  {
    Ign.Duration(d.sec, U32ToI32(d.nanosec))
  }

  /** The Duration constructor gives back any normalised duration from its
      encoded seconds and nanoseconds. */
  ghost predicate RestoresDuration(duration: Ign.Duration -> Ros.Duration) {
    forall d: Ros.Duration :: d.nanosec < 1_000_000_000 ==> duration(DurationToIgn(d)) == d
  }

  /** `convert_ros_to_ign(JointTrajectoryPoint)`: the four lists appended,
      the time overwritten. */
  function TrajectoryPointToIgn(src: Ros.JointTrajectoryPoint, dst: Ign.JointTrajectoryPoint): (r: Ign.JointTrajectoryPoint)
    ensures r.positions == dst.positions + src.positions
    ensures r.velocities == dst.velocities + src.velocities
    ensures r.accelerations == dst.accelerations + src.accelerations
    ensures r.effort == dst.effort + src.effort
    ensures r.timeFromStart == DurationToIgn(src.timeFromStart)
  {
    Ign.JointTrajectoryPoint(
      dst.positions + src.positions,
      dst.velocities + src.velocities,
      dst.accelerations + src.accelerations,
      dst.effort + src.effort,
      DurationToIgn(src.timeFromStart))
  }

  /** `convert_ign_to_ros(JointTrajectoryPoint)`. */
  function TrajectoryPointToRos(src: Ign.JointTrajectoryPoint, dst: Ros.JointTrajectoryPoint, duration: Ign.Duration -> Ros.Duration): (r: Ros.JointTrajectoryPoint)
    ensures r.positions == dst.positions + src.positions
    ensures r.velocities == dst.velocities + src.velocities
    ensures r.accelerations == dst.accelerations + src.accelerations
    ensures r.effort == dst.effort + src.effort
    ensures r.timeFromStart == duration(src.timeFromStart)
  {
    Ros.JointTrajectoryPoint(
      dst.positions + src.positions,
      dst.velocities + src.velocities,
      dst.accelerations + src.accelerations,
      dst.effort + src.effort,
      duration(src.timeFromStart))
  }

  /** A point with normalised time survives a round trip through fresh
      points. */
  lemma TrajectoryPointRoundTrip(p: Ros.JointTrajectoryPoint, duration: Ign.Duration -> Ros.Duration)
    requires RestoresDuration(duration) && p.timeFromStart.nanosec < 1_000_000_000
    ensures TrajectoryPointToRos(TrajectoryPointToIgn(p, Ign.DefaultJointTrajectoryPoint), Ros.DefaultJointTrajectoryPoint, duration) == p
  {
  }

  /** Converting a point into one that already holds values accumulates
      them: the lists grow, they are not replaced. */
  lemma TrajectoryPointAccumulates(p: Ros.JointTrajectoryPoint, dst: Ign.JointTrajectoryPoint)
    ensures |TrajectoryPointToIgn(p, TrajectoryPointToIgn(p, dst)).positions| == |dst.positions| + 2 * |p.positions|
  {
  }

  /** `convert_ros_to_ign(JointTrajectory)`: header, then joint names and
      points appended. */
  function JointTrajectoryToIgn(src: Ros.JointTrajectory, dst: Ign.JointTrajectory): (r: Ign.JointTrajectory)
    ensures r.header == HeaderToIgn(src.header, dst.header)
    ensures r.jointNames == dst.jointNames + src.jointNames
    ensures |r.points| == |dst.points| + |src.points| && r.points[..|dst.points|] == dst.points
    ensures forall i :: 0 <= i < |src.points| ==> r.points[|dst.points| + i] == TrajectoryPointToIgn(src.points[i], Ign.DefaultJointTrajectoryPoint)
  {
    Ign.JointTrajectory(
      HeaderToIgn(src.header, dst.header),
      dst.jointNames + src.jointNames,
      dst.points + Map((p: Ros.JointTrajectoryPoint) => TrajectoryPointToIgn(p, Ign.DefaultJointTrajectoryPoint), src.points))
  }

  /** `convert_ign_to_ros(JointTrajectory)`. */
  function JointTrajectoryToRos(src: Ign.JointTrajectory, dst: Ros.JointTrajectory, now: Ros.Time, duration: Ign.Duration -> Ros.Duration): (r: Ros.JointTrajectory)
    ensures r.header == HeaderToRos(src.header, dst.header, now)
    ensures r.jointNames == dst.jointNames + src.jointNames
    ensures |r.points| == |dst.points| + |src.points| && r.points[..|dst.points|] == dst.points
    ensures forall i :: 0 <= i < |src.points| ==> r.points[|dst.points| + i] == TrajectoryPointToRos(src.points[i], Ros.DefaultJointTrajectoryPoint, duration)
  {
    Ros.JointTrajectory(
      HeaderToRos(src.header, dst.header, now),
      dst.jointNames + src.jointNames,
      dst.points + Map((p: Ign.JointTrajectoryPoint) => TrajectoryPointToRos(p, Ros.DefaultJointTrajectoryPoint, duration), src.points))
  }

  /** Between trajectories with no names or points yet, a trajectory whose
      point times are normalised survives up to its relayed header. */
  lemma JointTrajectoryRoundTrip(
    t: Ros.JointTrajectory, dst: Ign.JointTrajectory, dst': Ros.JointTrajectory, now: Ros.Time,
    duration: Ign.Duration -> Ros.Duration)
    requires RestoresDuration(duration)
    requires forall i :: 0 <= i < |t.points| ==> t.points[i].timeFromStart.nanosec < 1_000_000_000
    requires dst.jointNames == [] && dst.points == [] && dst'.jointNames == [] && dst'.points == []
    ensures JointTrajectoryToRos(JointTrajectoryToIgn(t, dst), dst', now, duration) == t.(header := Relayed(t.header, now))
  {
    HeaderRoundTrip(t.header, dst.header, dst'.header, now);
    var r := JointTrajectoryToRos(JointTrajectoryToIgn(t, dst), dst', now, duration);
    forall i | 0 <= i < |t.points|
      ensures r.points[i] == t.points[i]
    {
      TrajectoryPointRoundTrip(t.points[i], duration);
    }
  }
}
